=== FILE: README.md ===
# shop-next storefront core, in Dafny

This project models the logic of a small Next.js storefront:
- the server cart (`/api/cart`): list, add (find-or-create then increment), and delete or decrement;
- the client carts: the guest list the two cart providers keep, the requests the signed-in provider sends, the `/cart` page's totals, reload and checkout, and the header's badge, search link, logout and user menu;
- product search in the `/api/products` route and on the `/products` page;
- session handling: the `auth_token` cookie, `/api/auth/me`, login and signup;
- the two admin gates (the dashboard page and its layout);
- the static catalog and the seed script.

Each route is a pure transition from a store and a request to a new store and a response. The database is an in-memory `Store`: users, products and cart rows kept in insertion order. It also holds the autoincrement counters and a `createdAt` clock that grows with every insert. `Store.Valid` is the database's constraint set:
- unique ids and emails;
- at most one cart row per (user, product);
- a quantity of at least 1 in every cart row;
- cart foreign keys;
- increasing timestamps.

Every route preserves `Valid`. bcrypt and JWT are the function-valued fields of `Auth.Crypto`. `Auth.Sound` states what those libraries promise:
- a password matches its own hash, and a hash is never empty and never the password itself;
- a freshly signed token is never empty and verifies to its claims.

Request bodies and token claims are JavaScript values (`Js.Value`), with JavaScript truthiness.

Files, one module each: `maybe`, `text` (trim, ASCII lowercase, substring), `js`, `seqs` (filter, reverse, sums, subsequences), `store`, `auth`, `cart_api`, `local_cart`, `client_cart`, `cart_page`, `navbar`, `product_search`, `auth_routes`, `admin`, `catalog`.

Where the documentation and the code differ, the model follows the code. In every route, a body that is not JSON makes `req.json()` throw inside the handler's `try`, so the answer is 500, not the 400 the documentation gives for malformed input. The same 500 comes from a login body of `null`, because login destructures it without `|| {}`. A lookup key of the wrong type (a non-numeric user id, a string `cartItemId`, a non-string email) also gives 500: the ORM rejects it with a throw.

## Model

| member | source | states |
|---|---|---|
| Auth.SessionUserId | sample/my-next-app/src/app/api/cart/route.js:7-25 | no session, or a `userId` of `undefined`/`null`, gives no id; otherwise the claimed id, with a numeric string turned into its number and any other value kept |
| Auth.CoerceDecimal | sample/my-next-app/src/app/api/cart/route.js:15-22 | a user id sent as a decimal string reaches the store as that same number |
| Auth.TokenAndCookieLifetimesAgree | sample/my-next-app/src/lib/auth.js:8-24 | the token's "7d" expiry and the cookie's 7×24×60×60 maxAge are both 604800 seconds |
| Auth.SetAuthCookie | sample/my-next-app/src/lib/auth.js:15-26 | the session cookie is `auth_token`, httpOnly, sameSite lax, path `/`, maxAge 604800, holds the token, and is `secure` exactly in production |
| Auth.ClearAuthCookie | sample/my-next-app/src/lib/auth.js:29-39 | clearing writes the very same cookie with value "" and maxAge 0 |
| Auth.GetUserFromCookie | sample/my-next-app/src/lib/auth.js:43-59 | a missing or empty token gives no session; otherwise the verifier's verdict, so a token that fails verification gives no session |
| Auth.ClearedCookieHasNoSession | sample/my-next-app/src/lib/auth.js:29-59 | the cleared cookie reads back as no session, whatever the verifier does |
| Auth.SetCookieReadsBack | sample/my-next-app/src/lib/auth.js:8-59 | a cookie set with a freshly signed token reads back as the signed claims |
| Auth.DisplayName | sample/my-next-app/src/app/api/auth/me/route.js:51-54 | the display name is never empty: the trimmed first name if non-empty, else the email's text before the first "@" if non-empty, else "User" |
| CartApi.List | sample/my-next-app/src/app/api/cart/route.js:29-70 | 401 exactly without a usable session, 500 for an id the ORM rejects, and both carry `items: []`; 200 carries the caller's listing |
| CartApi.ListingIsCallersRows | sample/my-next-app/src/app/api/cart/route.js:40-55 | the listing holds only rows of the caller, and every row of the caller |
| CartApi.ListingNewestFirst | sample/my-next-app/src/app/api/cart/route.js:54 | in a valid store the listing is strictly ordered by `createdAt`, descending |
| CartApi.ListingHasProducts | sample/my-next-app/src/app/api/cart/route.js:45-52 | in a valid store every listed line carries its product |
| CartApi.AddedQty | sample/my-next-app/src/app/api/cart/route.js:95 | the amount added is `qty` when it is a positive number and 1 otherwise, so it is always at least 1 |
| CartApi.AddRow | sample/my-next-app/src/app/api/cart/route.js:97-134 | an existing (user, product) row grows by exactly the added amount and is the only change to the store; otherwise one row is created with that amount, the next id and the next timestamp, and nothing else changes; 500, with the store unchanged, only when there is no row and the user or product is missing; no other pair's quantity and no other user's row changes; validity is kept |
| CartApi.Add | sample/my-next-app/src/app/api/cart/route.js:75-142 | the session is checked before the body (401); a falsy `productId` gives 400; a non-JSON body, a non-numeric user id or a non-string `productId` gives 500; with a session and a non-empty string `productId` the answer is exactly the find-or-create of that product for the caller, adding `qty` or 1; every non-200 answer leaves the store unchanged; validity is kept |
| CartApi.Locate | sample/my-next-app/src/app/api/cart/route.js:161-174 | the row is looked up by `cartItemId` when that is truthy, else by `productId`, always among the caller's rows; neither key means no lookup; the lookup fails, as the ORM's type check does, exactly when the key it uses or the user id has the wrong type |
| CartApi.RemoveByProduct | sample/my-next-app/src/app/api/cart/route.js:169-183 | a delete keyed by `productId` alone, with no truthy `cartItemId`, acts on the caller's first row for that product, and answers 404 with the store unchanged when the caller has none |
| CartApi.RemoveByItem | sample/my-next-app/src/app/api/cart/route.js:164-168 | a delete with a truthy numeric `cartItemId` acts on the caller's row with that id, whatever `productId` says, deleting or decrementing it, and answers 404 with the store unchanged when the caller has no such row |
| CartApi.RemoveAt | sample/my-next-app/src/app/api/cart/route.js:183-207 | with `removeAll` or a quantity of at most 1 the row is deleted and nothing else changes; otherwise its quantity drops by exactly 1 and nothing else changes; no other pair and no other user changes; validity is kept |
| CartApi.Remove | sample/my-next-app/src/app/api/cart/route.js:148-215 | 401 without a session; 404 "Item not found", with the store unchanged, exactly when no key is given or no owned row matches; 500 exactly for a non-JSON body or a key the ORM rejects; a located row is always deleted or decremented, and 200 means exactly that |
| CartApi.Handle | sample/my-next-app/src/app/api/cart/route.js:29-215 | a listing never changes the store; no request without a session changes it; every request keeps the store valid |
| CartApi.OthersUntouched | sample/my-next-app/src/app/api/cart/route.js:98-200 | whatever the caller sends, every other user's rows stay exactly as they were |
| CartApi.HandleKeepsInvariant | sample/my-next-app/src/app/api/cart/route.js:95-200 | after any request every row has quantity at least 1 and no (user, product) pair has two rows |
| CartApi.RowIffQty | sample/my-next-app/src/app/api/cart/route.js:98-104 | in a valid store the caller holds some of a product exactly when a row for the pair exists |
| CartApi.RemoveLineStep | sample/my-next-app/src/app/api/cart/route.js:164-193 | a `{ cartItemId, removeAll: true }` delete removes exactly that id from the caller's ids, whether or not the caller owned it |
| CartApi.RemoveLinesEmptiesCart | sample/my-next-app/src/app/cart/page.jsx:136-150 | deleting, line by line, a list of ids covering every id the caller owns leaves the caller no rows and other users' rows as they were |
| CartApi.ListingCoversOwnedIds | sample/my-next-app/src/app/api/cart/route.js:40-55 | every id the caller owns appears among the listed ids |
| CartApi.DeleteListedEmptiesListing | sample/my-next-app/src/app/cart/page.jsx:136-152 | deleting every listed line leaves an empty listing, a valid store and other users' rows unchanged |
| LocalCart.AddDefaultsToOne | sample/my-next-app/src/providers.jsx:123 | an omitted quantity adds one |
| LocalCart.AddQtyOfId | sample/my-next-app/src/providers.jsx:139-147 | adding raises the quantity held under the product's id by `qty` and under no other id |
| LocalCart.AddCount | sample/my-next-app/src/app/providers.jsx:26-41 | `count` goes up by exactly the added quantity |
| LocalCart.AddTotal | sample/my-next-app/src/app/providers.jsx:26-40 | `total` goes up by the added quantity times the price of the entry it lands in |
| LocalCart.AddKeepsDistinct | sample/my-next-app/src/app/providers.jsx:26-36 | distinct ids stay distinct, and the added id is then present |
| LocalCart.Remove | sample/my-next-app/src/providers.jsx:166 | no entry with the removed id remains, and the rest is a subsequence of the list in its original order |
| LocalCart.RemoveMembership | sample/my-next-app/src/app/providers.jsx:38 | an entry survives removal exactly when it has another id |
| LocalCart.RemoveCount | sample/my-next-app/src/providers.jsx:166 | removal lowers `count` by exactly the quantity held under that id, leaving none of it |
| LocalCart.RemoveAbsent | sample/my-next-app/src/app/providers.jsx:38 | removing an id that is not present changes nothing |
| LocalCart.Clear | sample/my-next-app/src/app/providers.jsx:39 | `clear` leaves the empty list: no entries, no quantity under any id, count and total 0 |
| LocalCart.ClearThenAdd | sample/my-next-app/src/app/providers.jsx:26-39 | adding a product after `clear` leaves exactly that product's single entry, with the given quantity or 1 |
| LocalCart.CountPositive | sample/my-next-app/src/providers.jsx:67-70 | a list whose quantities are all at least 1 counts at least its length |
| ClientCart.FetchCartFromServer | sample/my-next-app/src/providers.jsx:73-89 | with no user nothing happens; with a user, a non-OK answer leaves the items and an OK one replaces them by the server's listing |
| ClientCart.ClearAsWrittenKeepsCart | sample/my-next-app/src/providers.jsx:172-185 | the signed-in `clear` as written never changes the server cart, and with a session the route answers 404 |
| ClientCart.RemoveAsWrittenDecrements | sample/my-next-app/src/providers.jsx:153-169 | the signed-in `remove` as written, on a line holding two or more, leaves the line with one fewer |
| ClientCart.RemoveAllDeletesPair | sample/my-next-app/src/providers.jsx:153-169 | one `{ productId, removeAll: true }` request leaves the caller none of the product, changes no other product of theirs and no other user, and keeps the store valid |
| ClientCart.SignedInStep | sample/my-next-app/src/providers.jsx:122-185 | the corrected signed-in action (remove sends `removeAll`, clear deletes line by line) keeps the store valid and ends with the re-read of the cart |
| ClientCart.ClearEmptiesCart | sample/my-next-app/src/providers.jsx:172-185 | the corrected signed-in `clear` leaves the caller no rows, re-reads an empty list, and leaves other users' rows as they were |
| ClientCart.RemoveDeletesLine | sample/my-next-app/src/providers.jsx:153-169 | the corrected signed-in `remove` deletes the caller's line for the product whatever it held, and changes no other product or user |
| ClientCart.AddAgreesWithGuest | sample/my-next-app/src/providers.jsx:122-150 | for a quantity of at least 1, the signed-in `add` of a stocked product changes the server quantity by exactly what the guest `add` changes the local one by |
| ClientCart.ZeroQtyDisagrees | sample/my-next-app/src/app/api/cart/route.js:95 | for a quantity of 0 the two carts part: the route adds 1 to the server quantity while the guest `add` leaves the local one as it was |
| CartPage.Subtotal | sample/my-next-app/src/app/cart/page.jsx:208 | a line without a product contributes 0, otherwise price times quantity |
| CartPage.TotalIsSumOfSubtotals | sample/my-next-app/src/app/cart/page.jsx:22-26 | `totalPrice` equals the sum of the line subtotals |
| CartPage.CountIsCallersQuantity | sample/my-next-app/src/app/cart/page.jsx:21 | loaded from the route, `totalCount` is the sum of the caller's row quantities, and in a valid store at least the number of lines |
| CartPage.FetchCart | sample/my-next-app/src/app/cart/page.jsx:39-63 | a throw shows "Network error loading cart"; a non-OK answer shows no lines and its `error`, or "Failed to load cart" when it has none; an OK answer shows no error and its `items`, or no lines when it has none |
| CartPage.FetchCartFromRoute | sample/my-next-app/src/app/cart/page.jsx:46-57 | against the route, a signed-in caller sees their listing, a visitor "Unauthorized" and no lines, and an error never comes with lines |
| CartPage.RemoveDeletesWholeLine | sample/my-next-app/src/app/cart/page.jsx:108-133 | "Remove" deletes the line whatever its quantity: its id leaves the caller's ids and the listing, and other users are untouched |
| CartPage.Checkout | sample/my-next-app/src/app/cart/page.jsx:136-158 | checkout keeps the store valid |
| CartPage.CheckoutEmptiesCart | sample/my-next-app/src/app/cart/page.jsx:136-158 | checking out the shown lines empties the caller's cart, the reload shows no lines, no error and zero totals, and other users are untouched |
| Navbar.BadgeCount | sample/my-next-app/src/components/Navbar.jsx:63-87 | a throw, a non-OK answer or a reply without an item array counts 0 |
| Navbar.BadgeFromRoute | sample/my-next-app/src/components/Navbar.jsx:77-80 | against the route the badge is 0 without a session and otherwise the same count the cart page shows, never negative in a valid store |
| Navbar.SearchPath | sample/my-next-app/src/components/Navbar.jsx:132-141 | a blank term links to `/products`, any other to `/products?search=` followed by the encoded trimmed term |
| Navbar.SearchReachesPage | sample/my-next-app/src/components/Navbar.jsx:134-139 | decoding the link gives the products page the trimmed term, and so the page filters by it lowercased; a blank search reaches the page with no term |
| Navbar.Logout | sample/my-next-app/src/components/Navbar.jsx:109-125 | logout ends with no user, both menus closed and a zero badge |
| Navbar.LogoutForgetsEverything | sample/my-next-app/src/components/Navbar.jsx:109-125 | the state after logout does not depend on the state before or on whether the request failed |
| Navbar.ShownName | sample/my-next-app/src/components/Navbar.jsx:275 | the shown name is never empty and is the display name whenever that is non-empty |
| Navbar.ShownRole | sample/my-next-app/src/components/Navbar.jsx:286 | the shown role is never empty and is the role whenever that is non-empty |
| Navbar.ServerUserShownAsIs | sample/my-next-app/src/components/Navbar.jsx:326 | for a user as the server returns it the name fallback is never used, and the admin link shows exactly for the stored role "ADMIN" |
| ProductSearch.Search | sample/my-next-app/src/app/api/products/route.js:12-18 | an empty query returns the list unchanged; any result is an order-preserving subsequence of the input |
| ProductSearch.SearchMembership | sample/my-next-app/src/app/api/products/route.js:13-17 | a product is in the result exactly when it is in the input and its lowercased name or id contains the query, the empty query included |
| ProductSearch.SearchIdempotent | sample/my-next-app/src/app/api/products/route.js:12-18 | filtering the result again with the same query changes nothing |
| ProductSearch.ApiSearchMembership | sample/my-next-app/src/app/api/products/route.js:8-18 | the route returns a product exactly when it is stored and matches the lowercased `search` |
| ProductSearch.NoQueryListsAll | sample/my-next-app/src/app/api/products/route.js:6-18 | an absent or empty `search` returns every product, newest first: in a valid store `createdAt` strictly descends along the result |
| ProductSearch.NewestFirstDescends | sample/my-next-app/src/app/api/products/route.js:9 | in a valid store the listing is strictly ordered by `createdAt`, descending |
| ProductSearch.NoQueryReversesStore | sample/my-next-app/src/app/api/products/route.js:6-18 | without a query the answer has one entry per stored product, and position `i` holds the product stored `i`-th from the end |
| ProductSearch.QueryCaseIgnored | sample/my-next-app/src/app/api/products/route.js:6 | two queries that agree up to ASCII case get the same result |
| ProductSearch.PageAgreesWithApi | sample/my-next-app/src/app/products/page.jsx:9-24 | for every `search` the page shows exactly what the route returns |
| AuthRoutes.Me | sample/my-next-app/src/app/api/auth/me/route.js:5-74 | no usable session gives 200 `{user: null}`; an id the ORM rejects gives 500 with `user: null`; otherwise 200 with the stored user's safe view, or null when the row is gone; no cookie is set |
| AuthRoutes.MeReadsOnlyTheId | sample/my-next-app/src/app/api/auth/me/route.js:34-61 | only the token's user id matters: email, role and name come from the users table |
| AuthRoutes.MeCoercesDecimalIds | sample/my-next-app/src/app/api/auth/me/route.js:19-25 | a user id claimed as a decimal string finds the same user as the number |
| AuthRoutes.Login | sample/my-next-app/src/app/api/auth/login/route.js:6-97 | 400 exactly for a falsy email or password; 500 exactly for a `null` or non-JSON body or a field of the wrong type; a registered email whose stored hash matches the password gets 200, and only such a one; a row with no stored hash or an empty one gets 401; every 401 is the one "Invalid email or password" answer; a cookie is set only on 200, and then it holds a token for the stored row's id, email and role; the reply is the row's safe view, without the hash |
| AuthRoutes.UnknownEmailLooksLikeWrongPassword | sample/my-next-app/src/app/api/auth/login/route.js:40-55 | an unknown email and a wrong password get the identical response |
| AuthRoutes.NameInputOf | sample/my-next-app/src/app/api/auth/signup/route.js:48-53 | a falsy name is left out, a string name is stored trimmed, any other value makes signup fail |
| AuthRoutes.NewUser | sample/my-next-app/src/app/api/auth/signup/route.js:43-54 | the created row has the next id, role "CUSTOMER" and the hash of the password at cost 10, which under sound hashing is neither empty nor the password itself |
| AuthRoutes.Create | sample/my-next-app/src/app/api/auth/signup/route.js:40-82 | a successful signup appends exactly the new row and bumps the id counter, answers 201 with the row's safe view, sets the cookie for its claims, and keeps the store valid |
| AuthRoutes.Signup | sample/my-next-app/src/app/api/auth/signup/route.js:6-110 | 400 exactly for a falsy email or password; 409 exactly for a registered email; 500 exactly for a non-JSON body or a field of the wrong type, so a fresh, well-typed signup always gets 201; every non-201 answer leaves the store unchanged; 201 appends exactly the new row, replies with its safe view and sets a cookie for its claims; validity is kept |
| AuthRoutes.SignupThenLogin | sample/my-next-app/src/app/api/auth/login/route.js:21-68 | right after signing up, the same email and password log in as the same user |
| AuthRoutes.SignupThenMe | sample/my-next-app/src/app/api/auth/signup/route.js:71-82 | the cookie signup sets resolves, through `/api/auth/me`, to the user signup returned |
| Admin.FullName | sample/my-next-app/src/app/admin/page.jsx:39-41 | the first name (or "") followed by a space and the last name only when the last name is non-empty |
| Admin.GetSessionUser | sample/my-next-app/src/app/admin/page.jsx:10-47 | no token, a failed verification, a non-numeric id or a missing row give null; otherwise the stored row's id, email, role and full name |
| Admin.Greeting | sample/my-next-app/src/app/admin/page.jsx:133 | the greeting is the name, or the email when the name is empty |
| Admin.AdminPage | sample/my-next-app/src/app/admin/page.jsx:49-102 | no user redirects to `/login`; a stored role other than "ADMIN" shows the denial with email and role; "ADMIN" shows the dashboard with the product, user and cart-row counts |
| Admin.PageUsesStoredRole | sample/my-next-app/src/app/admin/page.jsx:21-38 | two tokens naming the same user id get the same page, whatever roles they claim |
| Admin.AdminLayout | sample/my-next-app/src/app/admin/layout.jsx:4-13 | no session redirects to `/login`; the children render exactly when the token's role is the string "Admin"; anything else redirects to `/` |
| Admin.AdminLayoutFixed | sample/my-next-app/src/app/admin/layout.jsx:11-13 | the same gate comparing with "ADMIN" |
| Admin.IssuedTokenFindsUser | sample/my-next-app/src/app/api/auth/login/route.js:58-68 | a token issued for a stored user reads back as that user's claims, and its id finds that user |
| Admin.LayoutTurnsAwayAdmins | sample/my-next-app/src/app/admin/layout.jsx:11-13 | an administrator's own token is sent to `/` by the layout, though the page alone would show it the dashboard |
| Admin.DashboardUnreachable | sample/my-next-app/src/app/admin/layout.jsx:11 | with the layout as written, no token issued for a stored user reaches the dashboard |
| Admin.FixedLayoutAdmitsAdmins | sample/my-next-app/src/app/admin/page.jsx:58 | with the corrected layout, an issued token reaches the dashboard exactly when its user's stored role is "ADMIN" |
| Catalog.ById | sample/my-next-app/src/lib/data.js:7 | `byId` returns a catalog entry with that id, and `undefined` exactly when none has it |
| Catalog.CatalogWellFormed | sample/my-next-app/src/lib/data.js:1-6 | the catalog ids are pairwise distinct and every price is positive |
| Catalog.ByIdFindsEach | sample/my-next-app/src/lib/data.js:7 | every catalog entry is found by its own id |
| Catalog.SeedMatchesCatalog | sample/my-next-app/prisma/seed.js:7-36 | the seeded products are exactly the static catalog, entry by entry |
| Catalog.Upsert | sample/my-next-app/prisma/seed.js:39-43 | an existing id leaves the store as it is; a missing one appends exactly the product with the next timestamp; the id is then present; validity is kept |
| Catalog.SeedKeepsExisting | sample/my-next-app/prisma/seed.js:38-44 | seeding keeps every existing product row in place, touches no user or cart row, and adds only rows with seeded ids |
| Catalog.SeedCoversIds | sample/my-next-app/prisma/seed.js:38-44 | after seeding every seeded id is present |
| Catalog.SeedPresentIsIdentity | sample/my-next-app/prisma/seed.js:41 | seeding a store that already holds every seeded id changes nothing |
| Catalog.SeedIdempotent | sample/my-next-app/prisma/seed.js:38-44 | seeding twice gives the same store as seeding once |
| Catalog.SeededCatalogIsStocked | sample/my-next-app/prisma/seed.js:38-44 | after seeding, every catalog product has a row |

## Left out

- Rendering: markup, styles and the responsive watchers only present data.
- Browser and server I/O is not modelled: `fetch`, router navigation, `window` events, the loading and auth-checked flags, and each component's `data.user || null` bootstrap. The model keeps the request bodies and how responses are read.
- Local storage: persisting the guest list to `localStorage` and loading it back.
- Concurrency: checkout's parallel deletes are modelled as one after another. POST's find-then-update race is not modelled: each request is atomic.
- The logout route is left out. It only calls `clearAuthCookie`, which is modelled.
- Database outages and other unexpected throws are left out. The only 500s modelled come from non-JSON bodies, ORM type errors, foreign-key failures on cart insert, and non-string passwords or names.
- The schema is not part of this model. Cart item ids are taken to be integers like user ids, so a string `cartItemId` makes the ORM throw.
- CartApi.AddedQty: quantities are integers. The route accepts any positive number, fractions included, and 32-bit overflow of the integer columns is not modelled.
- Text.Lower: only ASCII letters are lowercased. JavaScript's `toLowerCase` covers all of Unicode.
- Auth.CoerceUserId: `Number()` is modelled for optionally signed decimal digits, surrounding whitespace and the empty string. Fractions, exponents, hexadecimal and `Infinity` count as `NaN`.
- Auth.Crypto: JWT expiry and the secret live inside the uninterpreted `verify`, and bcrypt's random salt inside `hash`.
- Navbar.BadgeCount: the reply is taken in the shape the route sends. A non-numeric `qty`, which JavaScript would concatenate or coerce, is not modelled.
- The provider's `total` and `count` over server-shaped items are left out. There the price sits under `product`, so JavaScript computes `NaN`. Only the guest list's folds are modelled.
- Js.Value has no object or array values. A body field that is an object or an array, such as a `productId` of `{}`, cannot be written down. The route would answer it with the same 500 the ORM's type check gives for any other non-string key.
- ProductSearch.PageTerm: a `search` parameter given several times is an array on the page. That case is left out.
- ClientCart.AddAgreesWithGuest: proved for a quantity of at least 1 only. For a quantity of 0 or less the route adds 1 (`qty > 0 ? qty : 1`) while the guest `add` adds the quantity as given; ClientCart.ZeroQtyDisagrees shows the case of 0. The product card posts a quantity of 1 (components/ProductCard.jsx, line 20).
- ClientCart.ClearEmptiesCart: the corrected `clear` is proved for a provider whose items are the current listing, which is what the re-read after every action leaves.

## Findings

| source | as written | input that shows it | evidently intended | confidence | as-written member | corrected member |
|---|---|---|---|---|---|---|
| sample/my-next-app/src/app/admin/layout.jsx:11 | the layout admits only the token role "Admin" | a user whose stored role is "ADMIN" logs in and opens `/admin`: the layout redirects to `/`, although the page would show the dashboard | compare with "ADMIN", the role the page, the header and the users table use | high, not executed | Admin.LayoutTurnsAwayAdmins | Admin.FixedLayoutAdmitsAdmins |
| sample/my-next-app/src/providers.jsx:174-178 | signed-in `clear` sends `{ clearAll: true }`, a field the DELETE handler never reads | a signed-in user with one cart line calls `clear`: the route answers 404 and the line stays | delete every line, as the cart page's checkout does with `{ cartItemId, removeAll: true }` per line | high, not executed | ClientCart.ClearAsWrittenKeepsCart | ClientCart.ClearEmptiesCart |
| sample/my-next-app/src/providers.jsx:156-160 | signed-in `remove` sends only `{ productId }`, so the route decrements | a signed-in user holding 2 of a product calls `remove`: 1 is left, while the guest `remove` drops the entry | send `removeAll: true`, so the line goes as in guest mode | medium, not executed | ClientCart.RemoveAsWrittenDecrements | ClientCart.RemoveDeletesLine |

=== FILE: admin.dfy ===
/**
 * The two gates in front of the admin dashboard. The page resolves the
 * session against the users table and requires the role "ADMIN"; the
 * layout around it reads the role straight from the token and requires
 * "Admin". The layout as written, and the same layout comparing against
 * "ADMIN", are both modelled: the first lets no freshly issued token
 * through to the dashboard.
 */
module Admin {
  import opened Maybe
  import opened Js
  import opened Store
  import opened Auth

  /** What `getSessionUser()` returns. */
  datatype SessionUser = SessionUser(id: int, email: string, role: string, name: string)

  /** `(firstName || "") + (lastName ? " " + lastName : "")`. On a string
      `f || ""` is `f` itself, since the only falsy string is "". */
  function FullName(firstName: Option<string>, lastName: Option<string>): (r: string)
    ensures lastName.None? || lastName == Some("") ==> r == firstName.GetOr("")
    ensures lastName.Some? && lastName.value != "" ==> r == firstName.GetOr("") + " " + lastName.value
  {
    var first := firstName.GetOr("");
    var last := match lastName case Some(l) => (if l != "" then " " + l else "") case None => "";
    first + last
  }

  /** `getSessionUser()`: no token, a token that fails verification, a
      user id the ORM rejects (it is not coerced here) or no such row give
      `None`; otherwise the row's id, email, role and full name. */
  function GetSessionUser(st: Store, cookie: Option<string>, c: Crypto): (r: Option<SessionUser>)
    ensures GetUserFromCookie(cookie, c).None? ==> r.None?
    ensures r.Some? ==>
      && GetUserFromCookie(cookie, c).Some?
      && GetUserFromCookie(cookie, c).value.userId.Num?
      && var row := FindUser(st.users, GetUserFromCookie(cookie, c).value.userId.n);
      && row.Some?
      && r.value == SessionUser(row.value.id, row.value.email, row.value.role, FullName(row.value.firstName, row.value.lastName))
    ensures GetUserFromCookie(cookie, c).Some? && GetUserFromCookie(cookie, c).value.userId.Num? ==>
      (r.None? <==> FindUser(st.users, GetUserFromCookie(cookie, c).value.userId.n).None?)
  {
    match GetUserFromCookie(cookie, c)
    case None => None
    case Some(claims) =>
      match claims.userId
      case Num(uid) =>
        (match FindUser(st.users, uid)
         case None => None
         case Some(u) => Some(SessionUser(u.id, u.email, u.role, FullName(u.firstName, u.lastName))))
      case _ => None
  }

  datatype Page =
    | RedirectLogin
    | RedirectHome
    | Denied(email: string, role: string)
    | Dashboard(greeting: string, role: string, productCount: nat, userCount: nat, cartItemCount: nat)
    | Children

  /** `user.name || user.email`. */
  function Greeting(u: SessionUser): (g: string)
    ensures u.name != "" ==> g == u.name
    ensures u.name == "" ==> g == u.email
  {
    if u.name != "" then u.name else u.email
  }

  /** `AdminPage()`: the three-way gate on the resolved user. */
  function AdminPage(st: Store, cookie: Option<string>, c: Crypto): (p: Page)
    ensures p.RedirectLogin? || p.Denied? || p.Dashboard?
    ensures p.RedirectLogin? <==> GetSessionUser(st, cookie, c).None?
    ensures p.Denied? ==> var u := GetSessionUser(st, cookie, c).value;
      u.role != "ADMIN" && p == Denied(u.email, u.role)
    ensures p.Dashboard? <==> GetSessionUser(st, cookie, c).Some? && GetSessionUser(st, cookie, c).value.role == "ADMIN"
    ensures p.Dashboard? ==>
      p == Dashboard(Greeting(GetSessionUser(st, cookie, c).value), "ADMIN", |st.products|, |st.users|, |st.cart|)
  {
    match GetSessionUser(st, cookie, c)
    case None => RedirectLogin
    case Some(u) =>
      if u.role != "ADMIN" then Denied(u.email, u.role)
      else Dashboard(Greeting(u), u.role, |st.products|, |st.users|, |st.cart|)
  }

  /** The page decides on the role stored now, not the one in the token: two
      tokens for the same user id get the same page. */
  lemma PageUsesStoredRole(st: Store, c: Crypto, t1: string, t2: string)
    requires t1 != "" && t2 != ""
    requires c.verify(t1).Some? && c.verify(t2).Some?
    requires c.verify(t1).value.userId == c.verify(t2).value.userId
    ensures AdminPage(st, Some(t1), c) == AdminPage(st, Some(t2), c)
  {
  }

  // ----- the layout -----

  /** `AdminLayout()` as written: the token's own claims, and the role
      compared with "Admin". */
  function AdminLayout(cookie: Option<string>, c: Crypto): (p: Page)
    ensures p.RedirectLogin? || p.RedirectHome? || p.Children?
    ensures p.RedirectLogin? <==> GetUserFromCookie(cookie, c).None?
    ensures p.Children? <==> GetUserFromCookie(cookie, c).Some? && GetUserFromCookie(cookie, c).value.role == Str("Admin")
  {
    match GetUserFromCookie(cookie, c)
    case None => RedirectLogin
    case Some(claims) => if claims.role != Str("Admin") then RedirectHome else Children
  }

  /** The layout that compares with "ADMIN", the role the page, the header
      and the users table use. */
  function AdminLayoutFixed(cookie: Option<string>, c: Crypto): (p: Page)
    ensures p.RedirectLogin? || p.RedirectHome? || p.Children?
    ensures p.RedirectLogin? <==> GetUserFromCookie(cookie, c).None?
    ensures p.Children? <==> GetUserFromCookie(cookie, c).Some? && GetUserFromCookie(cookie, c).value.role == Str("ADMIN")
  {
    match GetUserFromCookie(cookie, c)
    case None => RedirectLogin
    case Some(claims) => if claims.role != Str("ADMIN") then RedirectHome else Children
  }

  /** Visiting `/admin`: the layout's gate, then the page inside it. */
  function Visit(layout: Page, st: Store, cookie: Option<string>, c: Crypto): Page {
    if layout.Children? then AdminPage(st, cookie, c) else layout
  }

  /** The token login and signup issue for a user. */
  function IssuedToken(c: Crypto, u: UserRow): string {
    SignAuthToken(c, TokenClaims(u))
  }

  /** In a valid store, the user found by an issued token is that user. */
  lemma IssuedTokenFindsUser(st: Store, c: Crypto, u: UserRow)
    requires Sound(c) && Valid(st) && u in st.users
    ensures GetUserFromCookie(Some(IssuedToken(c, u)), c) == Some(TokenClaims(u))
    ensures FindUser(st.users, u.id) == Some(u)
  {
    var k :| 0 <= k < |st.users| && st.users[k] == u;
    forall j | 0 <= j < |st.users| && j != k ensures st.users[j].id != u.id {
      if j < k {
        assert UsersApart(st.users[j], st.users[k]);
      } else {
        assert UsersApart(st.users[k], st.users[j]);
      }
    }
  }

  /** As written, an administrator's own token is turned away by the layout:
      it carries the stored role "ADMIN", not "Admin". */
  lemma LayoutTurnsAwayAdmins(st: Store, c: Crypto, u: UserRow)
    requires Sound(c) && Valid(st) && u in st.users && u.role == "ADMIN"
    ensures AdminLayout(Some(IssuedToken(c, u)), c) == RedirectHome
    ensures AdminPage(st, Some(IssuedToken(c, u)), c).Dashboard?
  {
    IssuedTokenFindsUser(st, c, u);
  }

  /** As written, no token issued for a current user ever reaches the
      dashboard: the layout wants "Admin" and the page "ADMIN", and such a
      token carries the user's one stored role. */
  lemma DashboardUnreachable(st: Store, c: Crypto, u: UserRow)
    requires Sound(c) && Valid(st) && u in st.users
    ensures !Visit(AdminLayout(Some(IssuedToken(c, u)), c), st, Some(IssuedToken(c, u)), c).Dashboard?
  {
    IssuedTokenFindsUser(st, c, u);
  }

  /** With the corrected layout, an administrator's issued token reaches the
      dashboard, and anyone else's does not. */
  lemma FixedLayoutAdmitsAdmins(st: Store, c: Crypto, u: UserRow)
    requires Sound(c) && Valid(st) && u in st.users
    ensures Visit(AdminLayoutFixed(Some(IssuedToken(c, u)), c), st, Some(IssuedToken(c, u)), c).Dashboard?
            <==> u.role == "ADMIN"
  {
    IssuedTokenFindsUser(st, c, u);
  }
}

=== FILE: auth.dfy ===
/**
 * The session primitives of the storefront: the signed token, the
 * `auth_token` cookie that carries it, reading the session back, the user id
 * the handlers derive from it, and the sanitized user they return.
 * Hashing and token signing are not modelled: they are the functions held in
 * a `Crypto` value.
 */
module Auth {
  import opened Maybe
  import opened Js
  import Text
  import Store

  /** The claims a token carries; a decoded token may hold any JSON values. */
  datatype Claims = Claims(userId: Value, email: Value, role: Value)

  /** The foreign libraries, as uninterpreted functions:
      `hash(plain, cost)` is `bcrypt.hash`, `matches(plain, hashed)` is
      `bcrypt.compare`, `sign(claims, lifetimeSeconds)` is `jwt.sign` with the
      server secret, and `verify(token)` is `jwt.verify`, `None` when the token
      is malformed, forged or expired. */
  datatype Crypto = Crypto(
    hash: (string, int) -> string,
    matches: (string, string) -> bool,
    sign: (Claims, int) -> string,
    verify: string -> Option<Claims>)

  /** What the libraries promise: a hash is a non-empty string, different
      from its password (bcrypt writes a `$2b$` header and a salt), that the
      password matches; a freshly signed token is a non-empty string that
      verifies to the claims it was signed with. */
  ghost predicate Sound(c: Crypto) {
    && (forall p, k :: c.hash(p, k) != "" && c.hash(p, k) != p && c.matches(p, c.hash(p, k)))
    && (forall cl, t :: c.sign(cl, t) != "" && c.verify(c.sign(cl, t)) == Some(cl))
  }

  const CookieName: string := "auth_token"
  const CookiePath: string := "/"
  const SameSite: string := "lax"

  /** The `expiresIn` option given to `jwt.sign`. */
  const TokenExpiresIn: string := "7d"

  /** The cookie's `maxAge`, written in the source as `7 * 24 * 60 * 60`. */
  const SessionMaxAge: int := 7 * 24 * 60 * 60

  /** bcrypt's cost factor at signup. */
  const BcryptCost: int := 10

  /** A time span in the notation `jwt.sign` accepts for `expiresIn`: digits
      followed by one of the units `s`, `m`, `h`, `d`. */
  function SpanSeconds(span: string): (r: Option<int>)
    ensures r.Some? ==> r.value >= 0
  {
    if |span| < 2 || !AllDigits(span[..|span| - 1]) then None
    else
      var n := DigitsValue(span[..|span| - 1]);
      match span[|span| - 1]
      case 's' => Some(n)
      case 'm' => Some(n * 60)
      case 'h' => Some(n * 60 * 60)
      case 'd' => Some(n * 24 * 60 * 60)
      case _ => None
  }

  /** The token expires exactly when the cookie does: after 604800 seconds. */
  lemma TokenAndCookieLifetimesAgree()
    ensures SessionMaxAge == 604800
    ensures SpanSeconds(TokenExpiresIn) == Some(SessionMaxAge)
  {
    assert TokenExpiresIn[..1] == "7";
    assert DigitsValue("7") == 7 by {
      assert "7"[..0] == "";
    }
  }

  /** `signAuthToken(payload)`. */
  function SignAuthToken(c: Crypto, claims: Claims): string {
    c.sign(claims, SpanSeconds(TokenExpiresIn).GetOr(0))
  }

  /** The attributes given to `cookies().set(...)`. */
  datatype Cookie = Cookie(
    name: string,
    value: string,
    httpOnly: bool,
    sameSite: string,
    secure: bool,
    path: string,
    maxAge: int)

  /** `setAuthCookie(token)`; `production` is `NODE_ENV === "production"`. */
  function SetAuthCookie(token: string, production: bool): (k: Cookie)
    ensures k.name == CookieName && k.value == token && k.maxAge == 604800
    ensures k.httpOnly && k.sameSite == "lax" && k.path == "/"
    ensures k.secure <==> production
  {
    Cookie(CookieName, token, true, SameSite, production, CookiePath, SessionMaxAge)
  }

  /** `clearAuthCookie()`: the same cookie, emptied and expired at once. */
  function ClearAuthCookie(production: bool): (k: Cookie)
    ensures k.value == "" && k.maxAge == 0
    ensures k.secure <==> production
    ensures forall token :: k == SetAuthCookie(token, production).(value := "", maxAge := 0)
  {
    Cookie(CookieName, "", true, SameSite, production, CookiePath, 0)
  }

  /** `getUserFromCookie()`: `cookie` is the `auth_token` value the request
      carries, if any. A missing or empty token, or one that fails
      verification, gives no session; otherwise the decoded claims. */
  function GetUserFromCookie(cookie: Option<string>, c: Crypto): (r: Option<Claims>)
    ensures cookie.None? || cookie == Some("") ==> r.None?
    ensures cookie.Some? && cookie.value != "" ==> r == c.verify(cookie.value)
  {
    match cookie
    case None => None
    case Some(token) => if token == "" then None else c.verify(token)
  }

  /** After logout the browser may still hold the cleared cookie; its empty
      value reads as no session, whatever the verifier would say. */
  lemma ClearedCookieHasNoSession(c: Crypto, production: bool)
    ensures GetUserFromCookie(Some(ClearAuthCookie(production).value), c) == None
  {
  }

  /** A session cookie set after signing `claims` reads back as those claims. */
  lemma SetCookieReadsBack(c: Crypto, claims: Claims, production: bool)
    requires Sound(c)
    ensures GetUserFromCookie(Some(SetAuthCookie(SignAuthToken(c, claims), production).value), c) == Some(claims)
  {
  }

  /** The coercion of a claimed user id: a string that `Number()` reads as a
      number becomes that number, any other value is kept as it is. */
  function CoerceUserId(v: Value): (r: Value)
    ensures !v.Str? ==> r == v
    ensures v.Str? ==> (NumberOf(v.s).Some? ==> r == Num(NumberOf(v.s).value))
    ensures v.Str? ==> (NumberOf(v.s).None? ==> r == v)
  {
    match v
    case Str(s) =>
      (match NumberOf(s)
       case Some(n) => Num(n)
       case None => v)
    case _ => v
  }

  /** A user id that was turned into its decimal string reaches the store as
      the same number. */
  lemma CoerceDecimal(n: nat)
    ensures CoerceUserId(Str(Decimal(n))) == Num(n)
  {
    NumberOfDecimal(n);
  }

  /** `requireUserId()` in the cart route (and the same check in `/api/auth/me`):
      no session, or a session whose `userId` is `undefined` or `null`, yields
      `None`; otherwise the coerced id. */
  function SessionUserId(session: Option<Claims>): (r: Option<Value>)
    ensures r.None? <==> session.None? || session.value.userId == Undefined || session.value.userId == Null
    ensures r.Some? ==> r.value == CoerceUserId(session.value.userId)
    ensures r.Some? ==> r.value != Undefined && r.value != Null
  {
    match session
    case None => None
    case Some(claims) =>
      if claims.userId == Undefined || claims.userId == Null then None
      else Some(CoerceUserId(claims.userId))
  }

  /** The user as the routes return it: exactly these four fields, and never
      the password hash. */
  datatype SafeUser = SafeUser(id: int, email: string, role: string, displayName: string)

  /** `firstName?.trim() || email?.split("@")[0] || "User"`. */
  function DisplayName(firstName: Option<string>, email: string): (r: string)
    ensures r != ""
    ensures firstName.Some? && Text.Trim(firstName.value) != "" ==> r == Text.Trim(firstName.value)
    ensures (firstName.None? || Text.Trim(firstName.value) == "") ==>
              r == (if Text.LocalPart(email) != "" then Text.LocalPart(email) else "User")
  {
    var trimmed := if firstName.Some? then Text.Trim(firstName.value) else "";
    if trimmed != "" then trimmed
    else if Text.LocalPart(email) != "" then Text.LocalPart(email)
    else "User"
  }

  /** `safeUser` built from a database row: the id, email and role of the row. */
  function SafeUserOf(u: Store.UserRow): (s: SafeUser)
    ensures s.id == u.id && s.email == u.email && s.role == u.role
    ensures s.displayName == DisplayName(u.firstName, u.email) && s.displayName != ""
  {
    SafeUser(u.id, u.email, u.role, DisplayName(u.firstName, u.email))
  }

  /** The token payload `{ userId, email, role }` built from a database row. */
  function TokenClaims(u: Store.UserRow): (cl: Claims)
    ensures cl.userId == Num(u.id) && cl.email == Str(u.email) && cl.role == Str(u.role)
  {
    Claims(Num(u.id), Str(u.email), Str(u.role))
  }
}

=== FILE: auth_routes.dfy ===
/**
 * The three session routes: `/api/auth/me` resolves the cookie's session
 * against the users table, `/api/auth/login` checks a password and issues
 * a session, `/api/auth/signup` creates a customer and issues a session.
 * A body that is not JSON, a lookup key that is not a string, or a
 * password or name that is not a string makes the ORM, bcrypt or `trim`
 * throw, which the handlers turn into 500.
 */
module AuthRoutes {
  import opened Maybe
  import opened Js
  import opened Store
  import Text
  import opened Auth

  datatype Reply =
    | UserOnly(user: Option<SafeUser>)              // { user }
    | ErrorNoUser(error: string)                    // { error, user: null }
    | UserMessage(account: SafeUser, message: string)  // { user, message }
    | ErrorOnly(error: string)                      // { error }

  /** The status, the JSON body, and the session cookie set, if any. */
  datatype Response = Response(status: int, reply: Reply, cookie: Option<Cookie>)

  // ================= /api/auth/me =================

  /** `GET /api/auth/me`. */
  function Me(st: Store, session: Option<Claims>): (r: Response)
    ensures r.cookie.None?
    ensures r.status == 200 || r.status == 500
    ensures SessionUserId(session).None? ==> r == Response(200, UserOnly(None), None)
    ensures r.status == 500 <==> SessionUserId(session).Some? && !SessionUserId(session).value.Num?
    ensures r.status == 500 ==> r.reply == ErrorNoUser("Server error")
    ensures SessionUserId(session).Some? && SessionUserId(session).value.Num? ==>
      r.reply == UserOnly(match FindUser(st.users, SessionUserId(session).value.n)
                          case Some(u) => Some(SafeUserOf(u))
                          case None => None)
  {
    match SessionUserId(session)
    case None => Response(200, UserOnly(None), None)
    case Some(key) =>
      match key
      case Num(uid) =>
        (match FindUser(st.users, uid)
         case None => Response(200, UserOnly(None), None)
         case Some(u) => Response(200, UserOnly(Some(SafeUserOf(u))), None))
      case _ => Response(500, ErrorNoUser("Server error"), None)
  }

  /** Only the id in the token matters: the returned email, role and name
      are read from the users table, whatever the token claims. */
  lemma MeReadsOnlyTheId(st: Store, a: Claims, b: Claims)
    requires a.userId == b.userId
    ensures Me(st, Some(a)) == Me(st, Some(b))
  {
  }

  /** A user id claimed as a decimal string finds the same user as the
      number itself. */
  lemma MeCoercesDecimalIds(st: Store, cl: Claims, n: nat)
    ensures Me(st, Some(cl.(userId := Str(Decimal(n))))) == Me(st, Some(cl.(userId := Num(n))))
  {
    CoerceDecimal(n);
  }

  // ================= /api/auth/login =================

  const InvalidCredentials: Response := Response(401, ErrorOnly("Invalid email or password"), None)

  /** `POST /api/auth/login` with body `{ email, password }`. */
  function Login(st: Store, c: Crypto, production: bool, body: Body): (r: Response)
    ensures r.status in {200, 400, 401, 500}
    ensures r.cookie.Some? <==> r.status == 200
    ensures r.status == 400 <==> body.Object? && (!Truthy(Get(body, "email")) || !Truthy(Get(body, "password")))
    ensures r.status == 401 ==> r == InvalidCredentials
    ensures r.status == 200 ==>
      && Get(body, "email").Str? && Get(body, "password").Str?
      && FindUserByEmail(st.users, Get(body, "email").s).Some?
      && var u := FindUserByEmail(st.users, Get(body, "email").s).value;
      && u.password.Some? && c.matches(Get(body, "password").s, u.password.value)
      && r.reply == UserMessage(SafeUserOf(u), "Login success")
      && r.cookie == Some(SetAuthCookie(SignAuthToken(c, TokenClaims(u)), production))
    // The converse: a registered email with a stored hash its password matches logs in.
    ensures (&& body.Object? && Get(body, "email").Str? && Get(body, "password").Str?
             && Get(body, "email").s != "" && Get(body, "password").s != ""
             && FindUserByEmail(st.users, Get(body, "email").s).Some?
             && var u := FindUserByEmail(st.users, Get(body, "email").s).value;
             && u.password.Some? && u.password.value != "" && c.matches(Get(body, "password").s, u.password.value))
            ==> r.status == 200
    // A row with no stored hash, or an empty one, never logs in.
    ensures (&& body.Object? && Get(body, "email").Str? && Get(body, "email").s != "" && Truthy(Get(body, "password"))
             && FindUserByEmail(st.users, Get(body, "email").s).Some?
             && FindUserByEmail(st.users, Get(body, "email").s).value.password in {None, Some("")})
            ==> r == InvalidCredentials
    // The body is `null` or not JSON, or a field has a type the lookup or bcrypt rejects.
    ensures r.status == 500 <==>
      || !body.Object?
      || (&& Truthy(Get(body, "email")) && Truthy(Get(body, "password"))
          && (|| !Get(body, "email").Str?
              || (&& FindUserByEmail(st.users, Get(body, "email").s).Some?
                  && FindUserByEmail(st.users, Get(body, "email").s).value.password.Some?
                  && FindUserByEmail(st.users, Get(body, "email").s).value.password.value != ""
                  && !Get(body, "password").Str?)))
  {
    if !body.Object? then Response(500, ErrorOnly("Login failed"), None)
    else
      var email, password := Get(body, "email"), Get(body, "password");
      if !Truthy(email) || !Truthy(password) then Response(400, ErrorOnly("Missing email or password"), None)
      else
        match email
        case Str(e) =>
          (match FindUserByEmail(st.users, e)
           case None => InvalidCredentials
           case Some(u) =>
             if u.password.None? || u.password.value == "" then InvalidCredentials
             else
               match password
               case Str(p) =>
                 if !c.matches(p, u.password.value) then InvalidCredentials
                 else
                   var token := SignAuthToken(c, TokenClaims(u));
                   Response(200, UserMessage(SafeUserOf(u), "Login success"), Some(SetAuthCookie(token, production)))
               case _ => Response(500, ErrorOnly("Login failed"), None))
        case _ => Response(500, ErrorOnly("Login failed"), None)
  }

  /** An unknown email and a wrong password get the very same answer, so the
      response does not reveal which emails are registered. */
  lemma UnknownEmailLooksLikeWrongPassword(st: Store, c: Crypto, production: bool, e: string, p: string, h: string)
    requires e != "" && p != ""
    ensures var body := Json(map["email" := Str(e), "password" := Str(p)]);
      && (FindUserByEmail(st.users, e).None? ==> Login(st, c, production, body) == InvalidCredentials)
      && ((FindUserByEmail(st.users, e).Some? && FindUserByEmail(st.users, e).value.password == Some(h) && h != "" && !c.matches(p, h))
           ==> Login(st, c, production, body) == InvalidCredentials)
  {
    var body := Json(map["email" := Str(e), "password" := Str(p)]);
    assert Get(body, "email") == Str(e) && Get(body, "password") == Str(p);
  }

  // ================= /api/auth/signup =================

  /** A name field of the body: falsy ones are left out of the row, strings
      are stored trimmed, anything else makes `trim` throw. */
  datatype NameInput = Omitted | Given(trimmed: string) | Invalid

  function NameInputOf(v: Value): (n: NameInput)
    ensures !Truthy(v) ==> n == Omitted
    ensures Truthy(v) && v.Str? ==> n == Given(Text.Trim(v.s))
    ensures Truthy(v) && !v.Str? ==> n == Invalid
  {
    if !Truthy(v) then Omitted
    else match v
      case Str(s) => Given(Text.Trim(s))
      case _ => Invalid
  }

  function Stored(n: NameInput): Option<string> {
    match n
    case Given(s) => Some(s)
    case _ => None
  }

  datatype Outcome = Outcome(store: Store, response: Response)

  /** The row `createData` describes, with the next autoincrement id. */
  function NewUser(st: Store, c: Crypto, e: string, p: string, first: NameInput, last: NameInput): (u: UserRow)
    ensures u.id == st.nextUserId && u.email == e && u.role == "CUSTOMER"
    ensures u.password == Some(c.hash(p, BcryptCost))
    ensures Sound(c) ==> u.password != Some(p) && u.password != Some("")
    ensures u.firstName == Stored(first) && u.lastName == Stored(last)
  {
    UserRow(st.nextUserId, e, Some(c.hash(p, BcryptCost)), "CUSTOMER", Stored(first), Stored(last))
  }

  /** The success path of signup: the new row is appended, answered with its
      safe view and signed into the session cookie. */
  function Create(st: Store, c: Crypto, production: bool, e: string, p: string, first: NameInput, last: NameInput): (o: Outcome)
    requires FindUserByEmail(st.users, e).None?
    ensures var u := NewUser(st, c, e, p, first, last);
      && o.store == st.(users := st.users + [u], nextUserId := st.nextUserId + 1)
      && o.response == Response(201, UserMessage(SafeUserOf(u), "Signup successful"),
                                Some(SetAuthCookie(SignAuthToken(c, TokenClaims(u)), production)))
    ensures Valid(st) ==> Valid(o.store)
  {
    var u := NewUser(st, c, e, p, first, last);
    var st' := st.(users := st.users + [u], nextUserId := st.nextUserId + 1);
    assert Valid(st) ==> Valid(st') by {
      if Valid(st) {
        AppendUserKeepsValid(st, u);
      }
    }
    Outcome(st', Response(201, UserMessage(SafeUserOf(u), "Signup successful"), Some(SetAuthCookie(SignAuthToken(c, TokenClaims(u)), production))))
  }

  /** `POST /api/auth/signup` with body `{ email, password, firstName?, lastName? }`. */
  function Signup(st: Store, c: Crypto, production: bool, body: Body): (o: Outcome)
    ensures o.response.status in {201, 400, 409, 500}
    ensures o.response.status != 201 ==> o.store == st
    ensures o.response.cookie.Some? <==> o.response.status == 201
    ensures o.response.status == 400 <==>
      !body.Malformed? && (!Truthy(Get(body, "email")) || !Truthy(Get(body, "password")))
    ensures o.response.status == 409 <==>
      && !body.Malformed? && Truthy(Get(body, "email")) && Truthy(Get(body, "password"))
      && Get(body, "email").Str? && FindUserByEmail(st.users, Get(body, "email").s).Some?
    ensures o.response.status == 409 ==> o.response.reply == ErrorOnly("Email already registered")
    ensures o.response.status == 201 ==>
      && Get(body, "email").Str? && Get(body, "password").Str?
      && FindUserByEmail(st.users, Get(body, "email").s).None?
      && var u := NewUser(st, c, Get(body, "email").s, Get(body, "password").s,
                          NameInputOf(Get(body, "firstName")), NameInputOf(Get(body, "lastName")));
      && o.store == st.(users := st.users + [u], nextUserId := st.nextUserId + 1)
      && o.response.reply == UserMessage(SafeUserOf(u), "Signup successful")
      && o.response.cookie == Some(SetAuthCookie(SignAuthToken(c, TokenClaims(u)), production))
    ensures Valid(st) ==> Valid(o.store)
    // The body is not JSON, or a field has a type the lookup, bcrypt or `trim` rejects.
    ensures o.response.status == 500 <==>
      || body.Malformed?
      || (&& Truthy(Get(body, "email")) && Truthy(Get(body, "password"))
          && (|| !Get(body, "email").Str?
              || (&& FindUserByEmail(st.users, Get(body, "email").s).None?
                  && (|| !Get(body, "password").Str?
                      || NameInputOf(Get(body, "firstName")).Invalid?
                      || NameInputOf(Get(body, "lastName")).Invalid?))))
  {
    if body.Malformed? then Outcome(st, Response(500, ErrorOnly("Signup failed"), None))
    else
      var email, password := Get(body, "email"), Get(body, "password");
      if !Truthy(email) || !Truthy(password) then Outcome(st, Response(400, ErrorOnly("Missing required fields"), None))
      else
        match email
        case Str(e) =>
          if FindUserByEmail(st.users, e).Some? then Outcome(st, Response(409, ErrorOnly("Email already registered"), None))
          else
            var first, last := NameInputOf(Get(body, "firstName")), NameInputOf(Get(body, "lastName"));
            (match password
             case Str(p) =>
               if first.Invalid? || last.Invalid? then Outcome(st, Response(500, ErrorOnly("Signup failed"), None))
               else Create(st, c, production, e, p, first, last)
             case _ => Outcome(st, Response(500, ErrorOnly("Signup failed"), None)))
        case _ => Outcome(st, Response(500, ErrorOnly("Signup failed"), None))
  }

  /** Right after signing up, the same email and password log in as the same
      user. */
  lemma SignupThenLogin(st: Store, c: Crypto, production: bool, body: Body)
    requires Sound(c) && Valid(st)
    requires Signup(st, c, production, body).response.status == 201
    ensures var o := Signup(st, c, production, body);
      var creds := Json(map["email" := Get(body, "email"), "password" := Get(body, "password")]);
      && Login(o.store, c, production, creds).status == 200
      && Login(o.store, c, production, creds).reply.account == o.response.reply.account
  {
    var o := Signup(st, c, production, body);
    var e, p := Get(body, "email").s, Get(body, "password").s;
    var creds := Json(map["email" := Get(body, "email"), "password" := Get(body, "password")]);
    assert Get(creds, "email") == Str(e) && Get(creds, "password") == Str(p);
    var u := o.store.users[|st.users|];
    assert FindUserByEmail(o.store.users, e) == Some(u) by {
      assert forall k | 0 <= k < |st.users| :: o.store.users[k] == st.users[k];
    }
    assert c.matches(p, c.hash(p, BcryptCost));
  }

  /** The cookie signup sets carries a session that `/api/auth/me` resolves
      to the user signup returned. */
  lemma SignupThenMe(st: Store, c: Crypto, production: bool, body: Body)
    requires Sound(c) && Valid(st)
    requires Signup(st, c, production, body).response.status == 201
    ensures var o := Signup(st, c, production, body);
      var session := GetUserFromCookie(Some(o.response.cookie.value.value), c);
      Me(o.store, session) == Response(200, UserOnly(Some(o.response.reply.account)), None)
  {
    var o := Signup(st, c, production, body);
    var u := o.store.users[|st.users|];
    SetCookieReadsBack(c, TokenClaims(u), production);
    assert FindUser(o.store.users, u.id) == Some(u) by {
      forall k | 0 <= k < |st.users| ensures o.store.users[k].id != u.id {
        assert o.store.users[k] == st.users[k];
      }
    }
  }
}

=== FILE: cart_api.dfy ===
/**
 * The `/api/cart` route: GET lists the caller's cart, POST adds to it
 * (find-or-create, then increment), DELETE removes a line or decrements it.
 * Each handler is a transition `(store, session, body) -> (store', response)`;
 * the session is the decoded token the cookie carried.
 *
 * The ORM rejects a where-clause value of the wrong type (a user id or cart
 * item id that is not a number, a product id that is not a string) by
 * throwing, and a create whose user or product does not exist violates a
 * foreign key; both land in the handler's `catch` and give 500.
 */
module CartApi {
  import opened Maybe
  import opened Js
  import opened Seqs
  import opened Store
  import Auth

  datatype ProductView = ProductView(id: string, name: string, price: int, image: string)

  /** One line of the GET reply: `{ id, qty, product: { id, name, price, image } }`. */
  datatype ListedItem = ListedItem(id: int, qty: int, product: Option<ProductView>)

  /** The row a mutation selects back: POST selects `productId`, a decrement does not. */
  datatype RowView = RowView(id: int, qty: int, productId: Option<string>)

  datatype Reply =
    | Items(items: seq<ListedItem>)                // { items }
    | ItemsError(error: string)                    // { error, items: [] }
    | ItemUpdated(item: RowView, message: string)  // { item, message }
    | Message(message: string)                     // { message }
    | Error(error: string)                         // { error }

  datatype Response = Response(status: int, reply: Reply)

  datatype Request = ListReq | AddReq(body: Body) | RemoveReq(body: Body)

  datatype Outcome = Outcome(store: Store, response: Response)

  const Unauthorized: Response := Response(401, Error("Unauthorized"))
  const ServerError: Response := Response(500, Error("Server error"))
  const NotFound: Response := Response(404, Error("Item not found"))

  /** The numeric user id of the session, when it has one: the only kind of
      id the ORM accepts in a where-clause. */
  function CallerId(session: Option<Auth.Claims>): Option<int> {
    match Auth.SessionUserId(session)
    case Some(Num(uid)) => Some(uid)
    case _ => None
  }

  predicate HasRow(cart: seq<CartRow>, uid: int, pid: string) {
    exists k | 0 <= k < |cart| :: cart[k].userId == uid && cart[k].productId == pid
  }

  /** In a valid store the caller holds some of a product exactly when a row
      for the pair exists. */
  lemma RowIffQty(st: Store, uid: int, pid: string)
    requires Valid(st)
    ensures HasRow(st.cart, uid, pid) <==> QtyOf(st.cart, uid, pid) >= 1
  {
    var f := QtyFor(uid, pid);
    forall k | 0 <= k < |st.cart| ensures f(st.cart[k]) >= 0 {
      assert CartRowFits(st, st.cart[k]);
    }
    Seqs.SumNonNegative(st.cart, f);
    if HasRow(st.cart, uid, pid) {
      var k :| 0 <= k < |st.cart| && st.cart[k].userId == uid && st.cart[k].productId == pid;
      assert CartRowFits(st, st.cart[k]);
      assert f(st.cart[k]) > 0;
    } else {
      NoRowNoQty(st.cart, uid, pid);
    }
  }

  // ================= GET =================

  function ViewOf(products: seq<ProductRow>, pid: string): Option<ProductView> {
    match FirstIndex(products, ProductHasId(pid))
    case Some(k) => Some(ProductView(products[k].id, products[k].name, products[k].price, products[k].image))
    case None => None
  }

  /** The caller's rows ordered by `createdAt` descending. Rows are stored in
      insertion order, so this is their reversal. */
  function NewestFirst(cart: seq<CartRow>, uid: int): seq<CartRow> {
    Reverse(RowsOf(cart, uid))
  }

  function Listing(st: Store, uid: int): (items: seq<ListedItem>)
    ensures |items| == |NewestFirst(st.cart, uid)|
    ensures forall i | 0 <= i < |items| ::
      && items[i].id == NewestFirst(st.cart, uid)[i].id
      && items[i].qty == NewestFirst(st.cart, uid)[i].qty
      && items[i].product == ViewOf(st.products, NewestFirst(st.cart, uid)[i].productId)
  {
    var rows := NewestFirst(st.cart, uid);
    seq(|rows|, i requires 0 <= i < |rows| => ListedItem(rows[i].id, rows[i].qty, ViewOf(st.products, rows[i].productId)))
  }

  /** GET /api/cart. */
  function List(st: Store, session: Option<Auth.Claims>): (r: Response)
    ensures r.status == 200 || r.status == 401 || r.status == 500
    ensures r.status != 200 ==> r.reply.ItemsError?
    ensures r.status == 401 <==> Auth.SessionUserId(session).None?
    ensures r.status == 200 <==> CallerId(session).Some?
    ensures r.status == 200 ==> r.reply == Items(Listing(st, CallerId(session).value))
  {
    match Auth.SessionUserId(session)
    case None => Response(401, ItemsError("Unauthorized"))
    case Some(key) =>
      match key
      case Num(uid) => Response(200, Items(Listing(st, uid)))
      case _ => Response(500, ItemsError("Server error"))
  }

  /** The listing holds exactly the caller's rows: every listed line is one of
      the caller's rows, and every row of the caller is listed. */
  lemma ListingIsCallersRows(st: Store, uid: int)
    ensures forall i | 0 <= i < |NewestFirst(st.cart, uid)| ::
      NewestFirst(st.cart, uid)[i] in st.cart && NewestFirst(st.cart, uid)[i].userId == uid
    ensures forall k | 0 <= k < |st.cart| && st.cart[k].userId == uid :: st.cart[k] in NewestFirst(st.cart, uid)
  {
    var own := RowsOf(st.cart, uid);
    var rows := NewestFirst(st.cart, uid);
    forall i | 0 <= i < |rows|
      ensures rows[i] in st.cart && rows[i].userId == uid
    {
      assert rows[i] == own[|own| - 1 - i];
      FilterMembership(st.cart, OwnedBy(uid), rows[i]);
    }
    forall k | 0 <= k < |st.cart| && st.cart[k].userId == uid
      ensures st.cart[k] in rows
    {
      FilterMembership(st.cart, OwnedBy(uid), st.cart[k]);
      var j :| 0 <= j < |own| && own[j] == st.cart[k];
      assert rows[|own| - 1 - j] == own[j];
    }
  }

  /** In a valid store the listing is ordered newest first, strictly. */
  lemma {:induction false} ListingNewestFirst(st: Store, uid: int)
    requires Valid(st)
    ensures forall i, j | 0 <= i < j < |NewestFirst(st.cart, uid)| ::
      NewestFirst(st.cart, uid)[i].createdAt > NewestFirst(st.cart, uid)[j].createdAt
  {
    var own := RowsOf(st.cart, uid);
    var idx := FilterEmbedding(st.cart, OwnedBy(uid));
    PairwiseEmbedded(own, st.cart, idx, CartApart);
    var rows := NewestFirst(st.cart, uid);
    forall i, j | 0 <= i < j < |rows|
      ensures rows[i].createdAt > rows[j].createdAt
    {
      assert rows[i] == own[|own| - 1 - i] && rows[j] == own[|own| - 1 - j];
      assert CartApart(own[|own| - 1 - j], own[|own| - 1 - i]);
    }
  }

  /** In a valid store every listed line carries its product. */
  lemma ListingHasProducts(st: Store, uid: int)
    requires Valid(st)
    ensures forall i | 0 <= i < |Listing(st, uid)| :: Listing(st, uid)[i].product.Some?
  {
    ListingIsCallersRows(st, uid);
    var rows := NewestFirst(st.cart, uid);
    forall i | 0 <= i < |rows|
      ensures ViewOf(st.products, rows[i].productId).Some?
    {
      var k :| 0 <= k < |st.cart| && st.cart[k] == rows[i];
      assert CartRowFits(st, st.cart[k]);
      var m :| 0 <= m < |st.products| && st.products[m].id == rows[i].productId;
      assert ProductHasId(rows[i].productId)(st.products[m]);
    }
  }

  // ================= POST =================

  /** `typeof qty === "number" && qty > 0 ? qty : 1`: the amount added is
      always positive. */
  function AddedQty(qty: Value): (n: int)
    ensures n >= 1
    ensures qty.Num? && qty.n > 0 ==> n == qty.n
    ensures !(qty.Num? && qty.n > 0) ==> n == 1
  {
    match qty
    case Num(q) => if q > 0 then q else 1
    case _ => 1
  }

  function PairIs(uid: int, pid: string): CartRow -> bool {
    (r: CartRow) => r.userId == uid && r.productId == pid
  }

  /** Find-or-create, then increment, for one (user, product) pair. */
  function AddRow(st: Store, uid: int, pid: string, add: int): (o: Outcome)
    requires add >= 1
    ensures o.response.status == 200 || o.response == ServerError
    ensures o.response.status != 200 ==> o.store == st
    ensures o.response.status == 500 <==> !HasRow(st.cart, uid, pid) && !(UserExists(st.users, uid) && ProductExists(st.products, pid))
    ensures o.response.status == 200 ==>
      && QtyOf(o.store.cart, uid, pid) == QtyOf(st.cart, uid, pid) + add
      && o.response.reply.ItemUpdated?
      && o.response.reply.item.productId == Some(pid)
      && (Valid(st) ==> o.response.reply.item.qty == QtyOf(o.store.cart, uid, pid))
      && |o.store.cart| == |st.cart| + (if HasRow(st.cart, uid, pid) then 0 else 1)
    ensures forall u, p | u != uid || p != pid :: QtyOf(o.store.cart, u, p) == QtyOf(st.cart, u, p)
    ensures OtherRows(o.store.cart, uid) == OtherRows(st.cart, uid)
    ensures Valid(st) ==> Valid(o.store)
    // Nothing but the located or created row changes.
    ensures match FirstIndex(st.cart, PairIs(uid, pid))
      case Some(i) => o.store == st.(cart := st.cart[i := st.cart[i].(qty := st.cart[i].qty + add)])
      case None => o.response.status == 200 ==>
        o.store == st.(cart := st.cart + [CartRow(st.nextCartId, uid, pid, add, st.clock)],
                       nextCartId := st.nextCartId + 1, clock := st.clock + 1)
  {
    match FirstIndex(st.cart, PairIs(uid, pid))
    case Some(i) =>
      var row := st.cart[i].(qty := st.cart[i].qty + add);
      var st' := st.(cart := st.cart[i := row]);
      ReplaceQty(st.cart, i, row, uid, pid);
      forall u, p | u != uid || p != pid
        ensures QtyOf(st'.cart, u, p) == QtyOf(st.cart, u, p)
      {
        ReplaceQty(st.cart, i, row, u, p);
      }
      ReplaceKeepsOthers(st.cart, i, row, uid);
      assert Valid(st) ==> Valid(st') && QtyOf(st'.cart, uid, pid) == row.qty by {
        if Valid(st) {
          ReplaceKeepsValid(st, i, row);
          UniqueRowQty(st'.cart, i);
        }
      }
      Outcome(st', Response(200, ItemUpdated(RowView(row.id, row.qty, Some(pid)), "Cart updated")))
    case None =>
      if !UserExists(st.users, uid) || !ProductExists(st.products, pid) then
        Outcome(st, ServerError)
      else
        var row := CartRow(st.nextCartId, uid, pid, add, st.clock);
        var st' := st.(cart := st.cart + [row], nextCartId := st.nextCartId + 1, clock := st.clock + 1);
        NoRowNoQty(st.cart, uid, pid);
        AppendQty(st.cart, row, uid, pid);
        forall u, p | u != uid || p != pid
          ensures QtyOf(st'.cart, u, p) == QtyOf(st.cart, u, p)
        {
          AppendQty(st.cart, row, u, p);
        }
        AppendKeepsOthers(st.cart, row, uid);
        assert Valid(st) ==> Valid(st') by {
          if Valid(st) {
            AppendKeepsValid(st, row);
          }
        }
        Outcome(st', Response(200, ItemUpdated(RowView(row.id, row.qty, Some(pid)), "Cart updated")))
  }

  /** POST /api/cart with body `{ productId, qty? }`. The session is checked
      before the body is read. */
  function Add(st: Store, session: Option<Auth.Claims>, body: Body): (o: Outcome)
    ensures o.response.status in {200, 400, 401, 500}
    ensures o.response.status != 200 ==> o.store == st
    ensures o.response.status == 401 <==> Auth.SessionUserId(session).None?
    ensures o.response.status == 400 <==>
      Auth.SessionUserId(session).Some? && !body.Malformed? && !Truthy(Get(body, "productId"))
    ensures o.response.status == 200 ==>
      && CallerId(session).Some? && Get(body, "productId").Str?
      && var uid, pid := CallerId(session).value, Get(body, "productId").s;
      && QtyOf(o.store.cart, uid, pid) == QtyOf(st.cart, uid, pid) + AddedQty(Get(body, "qty"))
      && OtherRows(o.store.cart, uid) == OtherRows(st.cart, uid)
    ensures Valid(st) ==> Valid(o.store)
    // A well-typed request reaches find-or-create with the added amount.
    ensures CallerId(session).Some? && !body.Malformed? && Get(body, "productId").Str? && Get(body, "productId").s != "" ==>
      o == AddRow(st, CallerId(session).value, Get(body, "productId").s, AddedQty(Get(body, "qty")))
    // The body cannot be parsed, or the ORM rejects the types of the keys.
    ensures Auth.SessionUserId(session).Some? && body.Malformed? ==> o == Outcome(st, ServerError)
    ensures (&& Auth.SessionUserId(session).Some? && !body.Malformed? && Truthy(Get(body, "productId"))
             && (CallerId(session).None? || !Get(body, "productId").Str?)) ==> o == Outcome(st, ServerError)
  {
    match Auth.SessionUserId(session)
    case None => Outcome(st, Unauthorized)
    case Some(key) =>
      if body.Malformed? then Outcome(st, ServerError)
      else if !Truthy(Get(body, "productId")) then Outcome(st, Response(400, Error("Missing productId")))
      else
        var add := AddedQty(Get(body, "qty"));
        match (key, Get(body, "productId"))
        case (Num(uid), Str(pid)) => AddRow(st, uid, pid, add)
        case _ => Outcome(st, ServerError)
  }

  // ================= DELETE =================

  function RowIs(uid: int, id: int): CartRow -> bool {
    (r: CartRow) => r.id == id && r.userId == uid
  }

  /** Deletes the located row, or decrements it when it holds more than one
      and `removeAll` is not set. */
  function RemoveAt(st: Store, i: int, removeAll: bool): (o: Outcome)
    requires 0 <= i < |st.cart|
    ensures o.response.status == 200
    ensures var row := st.cart[i];
      && (removeAll || row.qty <= 1 ==>
            o.store == st.(cart := st.cart[..i] + st.cart[i + 1..]) && o.response.reply == Message("Item removed"))
      && (!(removeAll || row.qty <= 1) ==>
            o.store == st.(cart := st.cart[i := row.(qty := row.qty - 1)])
            && o.response.reply == ItemUpdated(RowView(row.id, row.qty - 1, None), "Item decremented"))
      && (Valid(st) ==> QtyOf(o.store.cart, row.userId, row.productId) == if removeAll then 0 else row.qty - 1)
      && (forall u, p | u != row.userId || p != row.productId :: QtyOf(o.store.cart, u, p) == QtyOf(st.cart, u, p))
      && OtherRows(o.store.cart, row.userId) == OtherRows(st.cart, row.userId)
      && |o.store.cart| == |st.cart| - (if removeAll || row.qty <= 1 then 1 else 0)
    ensures Valid(st) ==> Valid(o.store)
  {
    var row := st.cart[i];
    var uid, pid := row.userId, row.productId;
    if removeAll || row.qty <= 1 then
      var st' := st.(cart := st.cart[..i] + st.cart[i + 1..]);
      DeleteQty(st.cart, i, uid, pid);
      forall u, p | u != uid || p != pid
        ensures QtyOf(st'.cart, u, p) == QtyOf(st.cart, u, p)
      {
        DeleteQty(st.cart, i, u, p);
      }
      DeleteKeepsOthers(st.cart, i, uid);
      assert Valid(st) ==> Valid(st') && QtyOf(st.cart, uid, pid) == row.qty by {
        if Valid(st) {
          DeleteKeepsValid(st, i);
          UniqueRowQty(st.cart, i);
        }
      }
      Outcome(st', Response(200, Message("Item removed")))
    else
      var row' := row.(qty := row.qty - 1);
      var st' := st.(cart := st.cart[i := row']);
      ReplaceQty(st.cart, i, row', uid, pid);
      forall u, p | u != uid || p != pid
        ensures QtyOf(st'.cart, u, p) == QtyOf(st.cart, u, p)
      {
        ReplaceQty(st.cart, i, row', u, p);
      }
      ReplaceKeepsOthers(st.cart, i, row', uid);
      assert Valid(st) ==> Valid(st') && QtyOf(st.cart, uid, pid) == row.qty by {
        if Valid(st) {
          ReplaceKeepsValid(st, i, row');
          UniqueRowQty(st.cart, i);
        }
      }
      Outcome(st', Response(200, ItemUpdated(RowView(row.id, row'.qty, None), "Item decremented")))
  }

  /** The row the body designates: by `cartItemId` when that is truthy, else
      by `productId` when that is truthy, always among the caller's rows.
      `None` means no query is made; `Some(None)` that the query found nothing;
      `Some(Some(i))` that it found row `i`. A key of the wrong type makes the
      ORM throw, modelled as `Failure`. */
  datatype Lookup = NoKey | Failure | Found(index: Option<nat>)

  function Locate(cart: seq<CartRow>, key: Value, body: Body): (l: Lookup)
    ensures l.NoKey? <==> !Truthy(Get(body, "cartItemId")) && !Truthy(Get(body, "productId"))
    ensures l.Found? && l.index.Some? ==> l.index.value < |cart| && key.Num? && cart[l.index.value].userId == key.n
    ensures l.Found? && Truthy(Get(body, "cartItemId")) ==>
      key.Num? && Get(body, "cartItemId").Num? &&
      (l.index.None? <==> forall k | 0 <= k < |cart| :: !(cart[k].id == Get(body, "cartItemId").n && cart[k].userId == key.n)) &&
      (l.index.Some? ==> cart[l.index.value].id == Get(body, "cartItemId").n)
    ensures l.Found? && !Truthy(Get(body, "cartItemId")) ==>
      key.Num? && Get(body, "productId").Str? &&
      (l.index.None? <==> !HasRow(cart, key.n, Get(body, "productId").s)) &&
      (l.index.Some? ==> cart[l.index.value].productId == Get(body, "productId").s)
    ensures l.Failure? <==>
      if Truthy(Get(body, "cartItemId")) then !(key.Num? && Get(body, "cartItemId").Num?)
      else Truthy(Get(body, "productId")) && !(key.Num? && Get(body, "productId").Str?)
  {
    var cartItemId, productId := Get(body, "cartItemId"), Get(body, "productId");
    if Truthy(cartItemId) then
      match (key, cartItemId)
      case (Num(uid), Num(id)) => Found(FirstIndex(cart, RowIs(uid, id)))
      case _ => Failure
    else if Truthy(productId) then
      match (key, productId)
      case (Num(uid), Str(pid)) =>
        Found(FirstIndex(cart, PairIs(uid, pid)))
      case _ => Failure
    else NoKey
  }

  /** DELETE /api/cart with body `{ cartItemId?, productId?, removeAll? }`. */
  function Remove(st: Store, session: Option<Auth.Claims>, body: Body): (o: Outcome)
    ensures o.response.status in {200, 401, 404, 500}
    ensures o.response.status != 200 ==> o.store == st
    ensures o.response.status == 401 <==> Auth.SessionUserId(session).None?
    ensures o.response.status == 404 <==>
      && Auth.SessionUserId(session).Some? && !body.Malformed?
      && var l := Locate(st.cart, Auth.SessionUserId(session).value, body);
      && (l.NoKey? || (l.Found? && l.index.None?))
    ensures o.response.status == 404 ==> o.response == NotFound
    ensures o.response.status == 200 ==>
      && CallerId(session).Some?
      && var l := Locate(st.cart, Auth.SessionUserId(session).value, body);
      && l.Found? && l.index.Some?
      && o == RemoveAt(st, l.index.value, Truthy(Get(body, "removeAll")))
      && OtherRows(o.store.cart, CallerId(session).value) == OtherRows(st.cart, CallerId(session).value)
    ensures Valid(st) ==> Valid(o.store)
    // A located row is always acted on.
    ensures Auth.SessionUserId(session).Some? && !body.Malformed? ==>
      var l := Locate(st.cart, Auth.SessionUserId(session).value, body);
      l.Found? && l.index.Some? ==> o == RemoveAt(st, l.index.value, Truthy(Get(body, "removeAll")))
    // The body cannot be parsed, or the ORM rejects the types of the keys.
    ensures o.response.status == 500 <==>
      && Auth.SessionUserId(session).Some?
      && (body.Malformed? || Locate(st.cart, Auth.SessionUserId(session).value, body).Failure?)
  {
    match Auth.SessionUserId(session)
    case None => Outcome(st, Unauthorized)
    case Some(key) =>
      if body.Malformed? then Outcome(st, ServerError)
      else
        match Locate(st.cart, key, body)
        case Failure => Outcome(st, ServerError)
        case NoKey => Outcome(st, NotFound)
        case Found(None) => Outcome(st, NotFound)
        case Found(Some(i)) => RemoveAt(st, i, Truthy(Get(body, "removeAll")))
  }

  /** A delete keyed by `productId` alone acts on the caller's row for that
      product, if there is one, and otherwise answers 404. */
  lemma RemoveByProduct(st: Store, session: Option<Auth.Claims>, body: Body, pid: string)
    requires CallerId(session).Some? && body.Object? && pid != ""
    requires !Truthy(Get(body, "cartItemId")) && Get(body, "productId") == Str(pid)
    ensures var uid := CallerId(session).value;
      Handle(st, session, RemoveReq(body)) ==
        match FirstIndex(st.cart, PairIs(uid, pid))
        case Some(i) => RemoveAt(st, i, Truthy(Get(body, "removeAll")))
        case None => Outcome(st, NotFound)
  {
    assert Auth.SessionUserId(session) == Some(Num(CallerId(session).value));
  }

  /** A delete keyed by `cartItemId` acts on the caller's row with that id,
      if there is one, whatever `productId` says, and otherwise answers 404. */
  lemma RemoveByItem(st: Store, session: Option<Auth.Claims>, body: Body, id: int)
    requires CallerId(session).Some? && body.Object? && id != 0
    requires Get(body, "cartItemId") == Num(id)
    ensures var uid := CallerId(session).value;
      Handle(st, session, RemoveReq(body)) ==
        match FirstIndex(st.cart, RowIs(uid, id))
        case Some(i) => RemoveAt(st, i, Truthy(Get(body, "removeAll")))
        case None => Outcome(st, NotFound)
  {
    assert Auth.SessionUserId(session) == Some(Num(CallerId(session).value));
  }

  /** The route as one transition function. */
  function Handle(st: Store, session: Option<Auth.Claims>, req: Request): (o: Outcome)
    ensures req.ListReq? ==> o.store == st
    ensures Valid(st) ==> Valid(o.store)
    ensures Auth.SessionUserId(session).None? ==> o.store == st && o.response.status == 401
  {
    match req
    case ListReq => Outcome(st, List(st, session))
    case AddReq(body) => Add(st, session, body)
    case RemoveReq(body) => Remove(st, session, body)
  }

  /** Whatever a caller sends, the rows of every other user stay as they were. */
  lemma OthersUntouched(st: Store, session: Option<Auth.Claims>, req: Request)
    requires CallerId(session).Some?
    ensures OtherRows(Handle(st, session, req).store.cart, CallerId(session).value) == OtherRows(st.cart, CallerId(session).value)
  {
  }

  /** Every stored row has a positive quantity and no (user, product) pair has
      two rows, after any request, given that the store started that way. */
  lemma HandleKeepsInvariant(st: Store, session: Option<Auth.Claims>, req: Request)
    requires Valid(st)
    ensures var st' := Handle(st, session, req).store;
      && (forall k | 0 <= k < |st'.cart| :: st'.cart[k].qty >= 1)
      && (forall a, b | 0 <= a < b < |st'.cart| ::
            st'.cart[a].userId != st'.cart[b].userId || st'.cart[a].productId != st'.cart[b].productId)
  {
    var st' := Handle(st, session, req).store;
    assert Valid(st');
    forall k | 0 <= k < |st'.cart| ensures st'.cart[k].qty >= 1 {
      assert CartRowFits(st', st'.cart[k]);
    }
    forall a, b | 0 <= a < b < |st'.cart|
      ensures st'.cart[a].userId != st'.cart[b].userId || st'.cart[a].productId != st'.cart[b].productId
    {
      assert CartApart(st'.cart[a], st'.cart[b]);
    }
  }
  // ================= clearing a cart line by line =================

  /** The body that deletes one line outright: `{ cartItemId, removeAll: true }`. */
  function RemoveLineBody(id: int): Body {
    Json(map["cartItemId" := Num(id), "removeAll" := Bool(true)])
  }

  /** Sends one line-deleting request per id, in order. */
  function RemoveLines(st: Store, session: Option<Auth.Claims>, ids: seq<int>): Store
    decreases |ids|
  {
    if ids == [] then st
    else RemoveLines(Handle(st, session, RemoveReq(RemoveLineBody(ids[0]))).store, session, ids[1..])
  }

  /** One line-deleting request takes exactly that id out of the caller's ids,
      whether or not the caller owned it. */
  lemma RemoveLineStep(st: Store, session: Option<Auth.Claims>, id: int)
    requires Valid(st) && CallerId(session).Some?
    ensures var uid := CallerId(session).value;
      OwnedIds(Handle(st, session, RemoveReq(RemoveLineBody(id))).store.cart, uid) == OwnedIds(st.cart, uid) - {id}
  {
    var uid := CallerId(session).value;
    var body := RemoveLineBody(id);
    assert Get(body, "cartItemId") == Num(id);
    assert Get(body, "removeAll") == Bool(true);
    if id == 0 {
      assert Get(body, "productId") == Undefined;
      assert Handle(st, session, RemoveReq(body)).store == st;
      forall k | 0 <= k < |st.cart| ensures st.cart[k].id != 0 {
        assert CartRowFits(st, st.cart[k]);
      }
    } else {
      RemoveByItem(st, session, body, id);
      match FirstIndex(st.cart, RowIs(uid, id))
      case None =>
        forall k | 0 <= k < |st.cart| && st.cart[k].userId == uid ensures st.cart[k].id != id {
          assert !RowIs(uid, id)(st.cart[k]);
        }
      case Some(i) =>
        DeleteOwnedIds(st.cart, i);
    }
  }

  /** Deleting, line by line, every id the caller owns (the ids of a listing,
      say) leaves the caller with an empty cart and every other user's rows
      as they were. */
  lemma {:induction false} RemoveLinesEmptiesCart(st: Store, session: Option<Auth.Claims>, ids: seq<int>)
    requires Valid(st) && CallerId(session).Some?
    requires forall x | x in OwnedIds(st.cart, CallerId(session).value) :: x in ids
    decreases |ids|
    ensures var st' := RemoveLines(st, session, ids);
      && Valid(st')
      && OwnedIds(st'.cart, CallerId(session).value) == {}
      && RowsOf(st'.cart, CallerId(session).value) == []
      && OtherRows(st'.cart, CallerId(session).value) == OtherRows(st.cart, CallerId(session).value)
  {
    var uid := CallerId(session).value;
    if ids == [] {
      assert OwnedIds(st.cart, uid) == {};
      NoOwnedIdsNoRows(st.cart, uid);
    } else {
      var next := Handle(st, session, RemoveReq(RemoveLineBody(ids[0]))).store;
      RemoveLineStep(st, session, ids[0]);
      OthersUntouched(st, session, RemoveReq(RemoveLineBody(ids[0])));
      forall x | x in OwnedIds(next.cart, uid) ensures x in ids[1..] {
        assert x in ids && x != ids[0];
      }
      RemoveLinesEmptiesCart(next, session, ids[1..]);
    }
  }

  /** The ids of listed lines, in order. */
  function ListedIds(listed: seq<ListedItem>): (ids: seq<int>)
    ensures |ids| == |listed| && forall k | 0 <= k < |ids| :: ids[k] == listed[k].id
  {
    seq(|listed|, k requires 0 <= k < |listed| => listed[k].id)
  }

  /** Every id the caller owns appears in the listing. */
  lemma ListingCoversOwnedIds(st: Store, uid: int)
    ensures forall x | x in OwnedIds(st.cart, uid) :: x in ListedIds(Listing(st, uid))
  {
    var listed := Listing(st, uid);
    ListingIsCallersRows(st, uid);
    forall x | x in OwnedIds(st.cart, uid) ensures x in ListedIds(listed) {
      var k :| 0 <= k < |st.cart| && st.cart[k].userId == uid && st.cart[k].id == x;
      assert st.cart[k] in NewestFirst(st.cart, uid);
      var j :| 0 <= j < |listed| && NewestFirst(st.cart, uid)[j] == st.cart[k];
      assert ListedIds(listed)[j] == x;
    }
  }

  /** Deleting every listed line leaves the caller's listing empty and every
      other user's rows as they were. */
  lemma DeleteListedEmptiesListing(st: Store, session: Option<Auth.Claims>)
    requires Valid(st) && CallerId(session).Some?
    ensures var uid := CallerId(session).value;
      var st' := RemoveLines(st, session, ListedIds(Listing(st, uid)));
      && Valid(st')
      && RowsOf(st'.cart, uid) == []
      && Listing(st', uid) == []
      && OtherRows(st'.cart, uid) == OtherRows(st.cart, uid)
  {
    var uid := CallerId(session).value;
    ListingCoversOwnedIds(st, uid);
    RemoveLinesEmptiesCart(st, session, ListedIds(Listing(st, uid)));
  }

  /** Without owned ids there are no owned rows. */
  lemma NoOwnedIdsNoRows(cart: seq<CartRow>, uid: int)
    requires OwnedIds(cart, uid) == {}
    ensures RowsOf(cart, uid) == []
  {
    forall k | 0 <= k < |cart| ensures cart[k].userId == uid ==> cart[k].id in OwnedIds(cart, uid) {
    }
    FilterDropsAll(cart, OwnedBy(uid));
  }
}

=== FILE: cart_page.dfy ===
/**
 * The `/cart` page: the totals it derives from the fetched lines, the
 * per-line subtotal, how it turns a cart response into what it shows, and
 * the requests behind "Remove" and "Checkout".
 */
module CartPage {
  import opened Maybe
  import opened Seqs
  import opened Store
  import Auth
  import CartApi

  type Line = CartApi.ListedItem

  function LineQty(it: Line): int {
    it.qty
  }

  /** `item.product?.price ?? 0`. */
  function PriceOrZero(it: Line): int {
    match it.product
    case Some(p) => p.price
    case None => 0
  }

  function PricedQty(it: Line): int {
    PriceOrZero(it) * it.qty
  }

  /** `totalCount`. */
  function TotalCount(items: seq<Line>): int {
    Sum(items, LineQty)
  }

  /** `totalPrice`. */
  function TotalPrice(items: seq<Line>): int {
    Sum(items, PricedQty)
  }

  /** The subtotal shown on a line: `(prod.price || 0) * item.qty` with
      `prod = item.product || {}`. A missing product counts as 0; on an
      integer price `price || 0` is the price itself, since the only falsy
      integer is 0. */
  function Subtotal(it: Line): (r: int)
    ensures it.product.None? ==> r == 0
    ensures it.product.Some? ==> r == it.product.value.price * it.qty
  {
    var price := match it.product
      case Some(p) => p.price
      case None => 0;
    price * it.qty
  }

  /** The footer total is the sum of the line subtotals, although one uses
      `??` and the other `||`. */
  lemma TotalIsSumOfSubtotals(items: seq<Line>)
    ensures TotalPrice(items) == Sum(items, Subtotal)
  {
    SumPointwise(items, PricedQty, Subtotal);
  }

  function RowQty(r: CartRow): int {
    r.qty
  }

  /** Loaded from the route, the page's count is the caller's quantity over
      all their rows, and so is never negative in a valid store. */
  lemma CountIsCallersQuantity(st: Store, uid: int)
    ensures TotalCount(CartApi.Listing(st, uid)) == Sum(RowsOf(st.cart, uid), RowQty)
    ensures Valid(st) ==> TotalCount(CartApi.Listing(st, uid)) >= |CartApi.Listing(st, uid)|
  {
    var rows := CartApi.NewestFirst(st.cart, uid);
    SumCorrespond(CartApi.Listing(st, uid), LineQty, rows, RowQty);
    SumReverse(RowsOf(st.cart, uid), RowQty);
    if Valid(st) {
      CartApi.ListingIsCallersRows(st, uid);
      forall i | 0 <= i < |rows| ensures rows[i].qty >= 1 {
        var k :| 0 <= k < |st.cart| && st.cart[k] == rows[i];
        assert CartRowFits(st, st.cart[k]);
      }
      AtLeastOneEach(rows);
    }
  }

  lemma {:induction false} AtLeastOneEach(rows: seq<CartRow>)
    requires forall i | 0 <= i < |rows| :: rows[i].qty >= 1
    ensures Sum(rows, RowQty) >= |rows|
  {
    if rows != [] {
      AtLeastOneEach(rows[1..]);
    }
  }

  // ----- loading -----

  datatype View = View(items: seq<Line>, error: string)

  function ErrorOf(reply: CartApi.Reply): string {
    match reply
    case ItemsError(e) => e
    case Error(e) => e
    case _ => ""
  }

  /** `fetchCart()`: `None` is a request that threw. A response that is not
      OK shows its `error`, or "Failed to load cart" when it has none, and no
      lines; an OK one shows its `items` and no error. */
  function FetchCart(resp: Option<CartApi.Response>): (v: View)
    ensures resp.None? ==> v == View([], "Network error loading cart")
    ensures resp.Some? && !(200 <= resp.value.status < 300) ==>
      && v.items == [] && v.error != ""
      && (ErrorOf(resp.value.reply) != "" ==> v.error == ErrorOf(resp.value.reply))
      && (ErrorOf(resp.value.reply) == "" ==> v.error == "Failed to load cart")
    ensures resp.Some? && 200 <= resp.value.status < 300 ==>
      && v.error == ""
      && (resp.value.reply.Items? ==> v.items == resp.value.reply.items)
      && (!resp.value.reply.Items? ==> v.items == [])
  {
    match resp
    case None => View([], "Network error loading cart")
    case Some(r) =>
      if !(200 <= r.status < 300) then
        var e := ErrorOf(r.reply);
        View([], if e != "" then e else "Failed to load cart")
      else
        View(if r.reply.Items? then r.reply.items else [], "")
  }

  /** Against the route: a signed-in caller sees their listing and no
      error, a visitor without a session sees "Unauthorized" and no lines. */
  lemma FetchCartFromRoute(st: Store, session: Option<Auth.Claims>)
    ensures CartApi.CallerId(session).Some? ==>
      FetchCart(Some(CartApi.List(st, session))) == View(CartApi.Listing(st, CartApi.CallerId(session).value), "")
    ensures Auth.SessionUserId(session).None? ==>
      FetchCart(Some(CartApi.List(st, session))) == View([], "Unauthorized")
    ensures FetchCart(Some(CartApi.List(st, session))).error != "" ==> FetchCart(Some(CartApi.List(st, session))).items == []
  {
  }

  // ----- remove and checkout -----

  /** "Remove" on a line: `{ cartItemId, removeAll: true }`. */
  function RemoveRequest(cartItemId: int): CartApi.Request {
    CartApi.RemoveReq(CartApi.RemoveLineBody(cartItemId))
  }

  /** "Remove" deletes the whole line, whatever its quantity. */
  lemma RemoveDeletesWholeLine(st: Store, session: Option<Auth.Claims>, it: Line)
    requires Valid(st) && CartApi.CallerId(session).Some?
    requires it in CartApi.Listing(st, CartApi.CallerId(session).value)
    ensures var uid := CartApi.CallerId(session).value;
      var after := CartApi.Handle(st, session, RemoveRequest(it.id)).store;
      && OwnedIds(after.cart, uid) == OwnedIds(st.cart, uid) - {it.id}
      && (forall x | x in CartApi.Listing(after, uid) :: x.id != it.id)
      && OtherRows(after.cart, uid) == OtherRows(st.cart, uid)
  {
    var uid := CartApi.CallerId(session).value;
    var after := CartApi.Handle(st, session, RemoveRequest(it.id)).store;
    CartApi.RemoveLineStep(st, session, it.id);
    CartApi.OthersUntouched(st, session, RemoveRequest(it.id));
    CartApi.ListingIsCallersRows(after, uid);
    forall x | x in CartApi.Listing(after, uid) ensures x.id != it.id {
      var j :| 0 <= j < |CartApi.Listing(after, uid)| && CartApi.Listing(after, uid)[j] == x;
      var row := CartApi.NewestFirst(after.cart, uid)[j];
      var k :| 0 <= k < |after.cart| && after.cart[k] == row;
      assert row.id in OwnedIds(after.cart, uid);
    }
  }

  /** "Checkout": one `removeAll` delete per shown line, then a reload. */
  function Checkout(st: Store, session: Option<Auth.Claims>, shown: seq<Line>): (r: (Store, View))
    ensures Valid(st) ==> Valid(r.0)
  {
    var after := CartApi.RemoveLines(st, session, CartApi.ListedIds(shown));
    RemoveLinesKeepValid(st, session, CartApi.ListedIds(shown));
    (after, FetchCart(Some(CartApi.List(after, session))))
  }

  lemma {:induction false} RemoveLinesKeepValid(st: Store, session: Option<Auth.Claims>, ids: seq<int>)
    ensures Valid(st) ==> Valid(CartApi.RemoveLines(st, session, ids))
    decreases |ids|
  {
    if ids != [] {
      RemoveLinesKeepValid(CartApi.Handle(st, session, RemoveRequest(ids[0])).store, session, ids[1..]);
    }
  }

  /** Checking out the lines the page shows empties the caller's cart: the
      reload shows no lines and no error, and no other user's row changes. */
  lemma CheckoutEmptiesCart(st: Store, session: Option<Auth.Claims>)
    requires Valid(st) && CartApi.CallerId(session).Some?
    ensures var uid := CartApi.CallerId(session).value;
      var r := Checkout(st, session, CartApi.Listing(st, uid));
      && RowsOf(r.0.cart, uid) == []
      && r.1 == View([], "")
      && TotalCount(r.1.items) == 0 && TotalPrice(r.1.items) == 0
      && OtherRows(r.0.cart, uid) == OtherRows(st.cart, uid)
  {
    CartApi.DeleteListedEmptiesListing(st, session);
  }
}

=== FILE: catalog.dfy ===
/**
 * The static product table the early pages used, and the seed script that
 * puts the same four products into the database: an upsert per product
 * that creates a missing row and leaves an existing one as it is.
 */
module Catalog {
  import opened Maybe
  import opened Seqs
  import opened Store

  datatype Product = Product(id: string, name: string, price: int, image: string)

  /** `products` in the static data module. */
  const Products: seq<Product> := [
    Product("basic-tee", "Basic Tee", 499, "https://images.unsplash.com/photo-1520975916090-3105956dac38?w=800&q=80"),
    Product("hoodie", "Comfy Hoodie", 1299, "https://images.unsplash.com/photo-1520975432082-6c4b1b1d0d50?w=800&q=80"),
    Product("cap", "Classic Cap", 299, "https://images.unsplash.com/photo-1519681393784-d120267933ba?w=800&q=80"),
    Product("sneakers", "Street Sneakers", 2499, "https://images.unsplash.com/photo-1523381294911-8d3cead13475?w=800&q=80")
  ]

  function IdIs(id: string): Product -> bool {
    (p: Product) => p.id == id
  }

  /** `byId(id)`: the product with that id, `None` for `undefined`. */
  function ById(id: string): (r: Option<Product>)
    ensures r.Some? ==> r.value in Products && r.value.id == id
    ensures r.None? <==> forall k | 0 <= k < |Products| :: Products[k].id != id
  {
    match FirstIndex(Products, IdIs(id))
    case Some(k) => Some(Products[k])
    case None => None
  }

  /** No two catalog entries share an id, so `byId` has one candidate at most,
      and every price is a positive number of cents. */
  lemma CatalogWellFormed()
    ensures forall i, j | 0 <= i < j < |Products| :: Products[i].id != Products[j].id
    ensures forall i | 0 <= i < |Products| :: Products[i].price > 0
  {
  }

  /** `byId` finds every catalog entry by its own id. */
  lemma ByIdFindsEach(k: int)
    requires 0 <= k < |Products|
    ensures ById(Products[k].id) == Some(Products[k])
  {
    CatalogWellFormed();
  }

  // ----- the seed -----

  /** `demoProducts` in the seed script. */
  const DemoProducts: seq<Product> := [
    Product("basic-tee", "Basic Tee", 499, "https://images.unsplash.com/photo-1520975916090-3105956dac38?w=800&q=80"),
    Product("hoodie", "Comfy Hoodie", 1299, "https://images.unsplash.com/photo-1520975432082-6c4b1b1d0d50?w=800&q=80"),
    Product("cap", "Classic Cap", 299, "https://images.unsplash.com/photo-1519681393784-d120267933ba?w=800&q=80"),
    Product("sneakers", "Street Sneakers", 2499, "https://images.unsplash.com/photo-1523381294911-8d3cead13475?w=800&q=80")
  ]

  /** The seed writes exactly the static catalog: same ids, names, prices
      and images, in the same order. */
  lemma SeedMatchesCatalog()
    ensures DemoProducts == Products
  {
  }

  /** `upsert({ where: { id }, update: {}, create: p })`: an existing row is
      left as it is; otherwise a row is inserted with the next timestamp. */
  function Upsert(st: Store, p: Product): (st': Store)
    ensures st'.users == st.users && st'.cart == st.cart
    ensures |st'.products| >= |st.products| && st'.products[..|st.products|] == st.products
    ensures ProductExists(st'.products, p.id)
    ensures ProductExists(st.products, p.id) ==> st' == st
    ensures !ProductExists(st.products, p.id) ==>
      st'.products == st.products + [ProductRow(p.id, p.name, p.price, p.image, st.clock)]
    ensures Valid(st) ==> Valid(st')
  {
    if ProductExists(st.products, p.id) then st
    else
      var row := ProductRow(p.id, p.name, p.price, p.image, st.clock);
      var st' := st.(products := st.products + [row], clock := st.clock + 1);
      assert st'.products[|st.products|].id == p.id;
      assert Valid(st) ==> Valid(st') by {
        if Valid(st) {
          AppendProductKeepsValid(st, row);
        }
      }
      st'
  }

  /** The `for` loop of `main()` over a list of products. */
  function SeedWith(st: Store, ps: seq<Product>): (st': Store)
    ensures Valid(st) ==> Valid(st')
    decreases |ps|
  {
    if ps == [] then st else SeedWith(Upsert(st, ps[0]), ps[1..])
  }

  /** `main()`. */
  function Seed(st: Store): Store {
    SeedWith(st, DemoProducts)
  }

  predicate AllPresent(st: Store, ps: seq<Product>) {
    forall i | 0 <= i < |ps| :: ProductExists(st.products, ps[i].id)
  }

  /** Seeding keeps every row there was, in place, and touches no user or
      cart row; every row it adds carries one of the seeded ids. */
  lemma {:induction false} SeedKeepsExisting(st: Store, ps: seq<Product>)
    ensures var st' := SeedWith(st, ps);
      && st'.users == st.users && st'.cart == st.cart
      && |st'.products| >= |st.products| && st'.products[..|st.products|] == st.products
      && (forall k | |st.products| <= k < |st'.products| :: exists i | 0 <= i < |ps| :: st'.products[k].id == ps[i].id)
    decreases |ps|
  {
    if ps != [] {
      var mid := Upsert(st, ps[0]);
      SeedKeepsExisting(mid, ps[1..]);
      var st' := SeedWith(st, ps);
      assert st'.products[..|st.products|] == mid.products[..|mid.products|][..|st.products|];
      forall k | |st.products| <= k < |st'.products| ensures exists i | 0 <= i < |ps| :: st'.products[k].id == ps[i].id {
        if k < |mid.products| {
          assert st'.products[k] == mid.products[k];
          assert st'.products[k].id == ps[0].id;
        } else {
          var i :| 0 <= i < |ps[1..]| && st'.products[k].id == ps[1..][i].id;
          assert st'.products[k].id == ps[i + 1].id;
        }
      }
    }
  }

  /** Rows already present stay present. */
  lemma KeepsPresence(a: Store, b: Store, id: string)
    requires |b.products| >= |a.products| && b.products[..|a.products|] == a.products
    requires ProductExists(a.products, id)
    ensures ProductExists(b.products, id)
  {
    var k :| 0 <= k < |a.products| && a.products[k].id == id;
    assert b.products[k] == a.products[k];
  }

  /** After seeding, every seeded id is in the store. */
  lemma {:induction false} SeedCoversIds(st: Store, ps: seq<Product>)
    ensures AllPresent(SeedWith(st, ps), ps)
    decreases |ps|
  {
    if ps != [] {
      var mid := Upsert(st, ps[0]);
      SeedCoversIds(mid, ps[1..]);
      SeedKeepsExisting(mid, ps[1..]);
      var st' := SeedWith(st, ps);
      KeepsPresence(mid, st', ps[0].id);
      forall i | 0 <= i < |ps| ensures ProductExists(st'.products, ps[i].id) {
        if i > 0 {
          assert ps[i] == ps[1..][i - 1];
        }
      }
    }
  }

  /** Seeding a store that already holds every seeded id changes nothing. */
  lemma {:induction false} SeedPresentIsIdentity(st: Store, ps: seq<Product>)
    requires AllPresent(st, ps)
    ensures SeedWith(st, ps) == st
    decreases |ps|
  {
    if ps != [] {
      assert ProductExists(st.products, ps[0].id);
      assert AllPresent(st, ps[1..]) by {
        forall i | 0 <= i < |ps[1..]| ensures ProductExists(st.products, ps[1..][i].id) {
          assert ps[1..][i] == ps[i + 1];
        }
      }
      SeedPresentIsIdentity(st, ps[1..]);
    }
  }

  /** Running the seed twice gives the same store as running it once. */
  lemma SeedIdempotent(st: Store)
    ensures Seed(Seed(st)) == Seed(st)
  {
    SeedCoversIds(st, DemoProducts);
    SeedPresentIsIdentity(Seed(st), DemoProducts);
  }

  /** After seeding, every catalog product can be put in a cart: a row with
      its id exists. */
  lemma SeededCatalogIsStocked(st: Store, k: int)
    requires 0 <= k < |Products|
    ensures ProductExists(Seed(st).products, Products[k].id)
  {
    SeedCoversIds(st, DemoProducts);
  }
}

=== FILE: client_cart.dfy ===
/**
 * The session-aware cart provider: a guest's actions edit the local list,
 * a signed-in user's actions become requests to `/api/cart`, after which
 * the provider re-reads the cart from the server.
 *
 * Two of the three signed-in request bodies do not do what the guest
 * branch does: `clear` sends a field the route never reads, and `remove`
 * omits `removeAll`, so the route decrements. Both are modelled as written
 * and next to a corrected mapping, which sends what the cart page sends.
 */
module ClientCart {
  import opened Maybe
  import opened Js
  import opened Store
  import Auth
  import LocalCart
  import CartApi
  import Seqs

  datatype Action =
    | AddItem(product: LocalCart.Product, qty: Option<int>)
    | RemoveItem(productId: string)
    | ClearCart

  /** What the guest branch does to the local list. */
  function GuestStep(items: seq<LocalCart.Item>, a: Action): seq<LocalCart.Item> {
    match a
    case AddItem(p, q) => LocalCart.Add(items, p, q)
    case RemoveItem(id) => LocalCart.Remove(items, id)
    case ClearCart => LocalCart.Clear()
  }

  /** `fetchCartFromServer()`: nothing happens without a signed-in user or
      when the response is not OK (`None`: the items stay as they were);
      otherwise the items become the server's listing. */
  function FetchCartFromServer(signedIn: bool, st: Store, session: Option<Auth.Claims>): (r: Option<seq<CartApi.ListedItem>>)
    ensures !signedIn ==> r.None?
    ensures signedIn ==> (r.Some? <==> CartApi.CallerId(session).Some?)
    ensures r.Some? ==> r.value == CartApi.Listing(st, CartApi.CallerId(session).value)
  {
    if !signedIn then None
    else
      var resp := CartApi.List(st, session);
      if resp.status == 200 then Some(resp.reply.items) else None
  }

  /** Requests sent one after another, each atomically. */
  function Run(st: Store, session: Option<Auth.Claims>, reqs: seq<CartApi.Request>): Store
    decreases |reqs|
  {
    if reqs == [] then st else Run(CartApi.Handle(st, session, reqs[0]).store, session, reqs[1..])
  }

  function AddBody(p: LocalCart.Product, qty: Option<int>): Body {
    Json(map["productId" := Str(p.id), "qty" := Num(qty.GetOr(1))])
  }

  // ================= as written =================

  /** The request each signed-in action sends in the provider as written. */
  function RequestAsWritten(a: Action): CartApi.Request {
    match a
    case AddItem(p, q) => CartApi.AddReq(AddBody(p, q))
    case RemoveItem(id) => CartApi.RemoveReq(Json(map["productId" := Str(id)]))
    case ClearCart => CartApi.RemoveReq(Json(map["clearAll" := Bool(true)]))
  }

  /** The signed-in `clear` as written never changes the server cart: the
      route finds neither `cartItemId` nor `productId` and answers 404. */
  lemma ClearAsWrittenKeepsCart(st: Store, session: Option<Auth.Claims>)
    ensures CartApi.Handle(st, session, RequestAsWritten(ClearCart)).store == st
    ensures Auth.SessionUserId(session).Some? ==>
      CartApi.Handle(st, session, RequestAsWritten(ClearCart)).response == CartApi.NotFound
  {
    var body := Json(map["clearAll" := Bool(true)]);
    assert Get(body, "cartItemId") == Undefined && Get(body, "productId") == Undefined;
  }

  /** The signed-in `remove` as written, on a line holding two or more,
      only takes one away: the line stays, unlike the guest branch, which
      drops every entry with that id. */
  lemma RemoveAsWrittenDecrements(st: Store, session: Option<Auth.Claims>, pid: string)
    requires Valid(st) && CartApi.CallerId(session).Some? && pid != ""
    requires QtyOf(st.cart, CartApi.CallerId(session).value, pid) >= 2
    ensures var uid := CartApi.CallerId(session).value;
      var after := CartApi.Handle(st, session, RequestAsWritten(RemoveItem(pid))).store;
      && QtyOf(after.cart, uid, pid) == QtyOf(st.cart, uid, pid) - 1
      && QtyOf(after.cart, uid, pid) >= 1
      && CartApi.HasRow(after.cart, uid, pid)
  {
    var uid := CartApi.CallerId(session).value;
    var body := Json(map["productId" := Str(pid)]);
    assert Get(body, "cartItemId") == Undefined && Get(body, "productId") == Str(pid);
    assert Get(body, "removeAll") == Undefined;
    CartApi.RemoveByProduct(st, session, body, pid);
    CartApi.RowIffQty(st, uid, pid);
    var i := Seqs.FirstIndex(st.cart, CartApi.PairIs(uid, pid)).value;
    var o := CartApi.RemoveAt(st, i, false);
    UniqueRowQty(st.cart, i);
    CartApi.RowIffQty(o.store, uid, pid);
  }

  // ================= corrected =================

  function RemoveAllBody(id: string): Body {
    Json(map["productId" := Str(id), "removeAll" := Bool(true)])
  }

  /** The requests each signed-in action should send: `remove` deletes the
      whole line, and `clear` deletes every listed line by its id, as the
      cart page's checkout does. `listed` is the provider's current items. */
  function Requests(a: Action, listed: seq<CartApi.ListedItem>): (reqs: seq<CartApi.Request>)
    ensures a.ClearCart? ==> |reqs| == |listed|
    ensures !a.ClearCart? ==> |reqs| == 1
  {
    match a
    case AddItem(p, q) => [CartApi.AddReq(AddBody(p, q))]
    case RemoveItem(id) => [CartApi.RemoveReq(RemoveAllBody(id))]
    case ClearCart => seq(|listed|, k requires 0 <= k < |listed| => CartApi.RemoveReq(CartApi.RemoveLineBody(listed[k].id)))
  }

  /** A signed-in action: the requests, then the re-read of the cart. */
  datatype Synced = Synced(store: Store, fetched: Option<seq<CartApi.ListedItem>>)

  function SignedInStep(st: Store, session: Option<Auth.Claims>, listed: seq<CartApi.ListedItem>, a: Action): (r: Synced)
    ensures r.fetched == FetchCartFromServer(true, r.store, session)
    ensures Valid(st) ==> Valid(r.store)
  {
    var after := Run(st, session, Requests(a, listed));
    RunKeepsValid(st, session, Requests(a, listed));
    Synced(after, FetchCartFromServer(true, after, session))
  }

  lemma {:induction false} RunKeepsValid(st: Store, session: Option<Auth.Claims>, reqs: seq<CartApi.Request>)
    ensures Valid(st) ==> Valid(Run(st, session, reqs))
    decreases |reqs|
  {
    if reqs != [] {
      RunKeepsValid(CartApi.Handle(st, session, reqs[0]).store, session, reqs[1..]);
    }
  }

  lemma {:induction false} RunClearIsRemoveLines(st: Store, session: Option<Auth.Claims>, listed: seq<CartApi.ListedItem>)
    ensures Run(st, session, Requests(ClearCart, listed)) == CartApi.RemoveLines(st, session, CartApi.ListedIds(listed))
    decreases |listed|
  {
    if listed != [] {
      var reqs := Requests(ClearCart, listed);
      assert reqs[1..] == Requests(ClearCart, listed[1..]);
      assert CartApi.ListedIds(listed)[1..] == CartApi.ListedIds(listed[1..]);
      RunClearIsRemoveLines(CartApi.Handle(st, session, reqs[0]).store, session, listed[1..]);
    }
  }

  /** The corrected signed-in `clear`, sent over the current listing, empties
      the caller's cart (and the re-read shows an empty list) while every
      other user's rows stay as they were, like the guest `clear`. */
  lemma ClearEmptiesCart(st: Store, session: Option<Auth.Claims>)
    requires Valid(st) && CartApi.CallerId(session).Some?
    ensures var uid := CartApi.CallerId(session).value;
      var r := SignedInStep(st, session, CartApi.Listing(st, uid), ClearCart);
      && RowsOf(r.store.cart, uid) == []
      && OtherRows(r.store.cart, uid) == OtherRows(st.cart, uid)
      && r.fetched == Some([])
  {
    var uid := CartApi.CallerId(session).value;
    RunClearIsRemoveLines(st, session, CartApi.Listing(st, uid));
    CartApi.DeleteListedEmptiesListing(st, session);
  }

  /** One `{ productId, removeAll: true }` request deletes the caller's line
      for the product and changes nothing else. */
  lemma RemoveAllDeletesPair(st: Store, session: Option<Auth.Claims>, pid: string)
    requires Valid(st) && CartApi.CallerId(session).Some? && pid != ""
    ensures var uid := CartApi.CallerId(session).value;
      var after := CartApi.Handle(st, session, CartApi.RemoveReq(RemoveAllBody(pid))).store;
      && QtyOf(after.cart, uid, pid) == 0
      && (forall p | p != pid :: QtyOf(after.cart, uid, p) == QtyOf(st.cart, uid, p))
      && OtherRows(after.cart, uid) == OtherRows(st.cart, uid)
      && Valid(after)
  {
    var uid := CartApi.CallerId(session).value;
    var body := RemoveAllBody(pid);
    assert Get(body, "cartItemId") == Undefined && Get(body, "productId") == Str(pid);
    assert Get(body, "removeAll") == Bool(true);
    CartApi.RemoveByProduct(st, session, body, pid);
    match Seqs.FirstIndex(st.cart, CartApi.PairIs(uid, pid))
    case Some(i) =>
      assert st.cart[i].userId == uid && st.cart[i].productId == pid;
    case None =>
      NoRowNoQty(st.cart, uid, pid);
  }

  /** The corrected signed-in `remove` deletes the caller's line for the
      product whatever it held, and touches no other product or user. */
  lemma RemoveDeletesLine(st: Store, session: Option<Auth.Claims>, listed: seq<CartApi.ListedItem>, pid: string)
    requires Valid(st) && CartApi.CallerId(session).Some? && pid != ""
    ensures var uid := CartApi.CallerId(session).value;
      var after := SignedInStep(st, session, listed, RemoveItem(pid)).store;
      && QtyOf(after.cart, uid, pid) == 0
      && !CartApi.HasRow(after.cart, uid, pid)
      && (forall p | p != pid :: QtyOf(after.cart, uid, p) == QtyOf(st.cart, uid, p))
      && OtherRows(after.cart, uid) == OtherRows(st.cart, uid)
  {
    var uid := CartApi.CallerId(session).value;
    var o := CartApi.Handle(st, session, CartApi.RemoveReq(RemoveAllBody(pid)));
    assert Run(st, session, Requests(RemoveItem(pid), listed)) == o.store by {
      assert Requests(RemoveItem(pid), listed)[1..] == [];
    }
    RemoveAllDeletesPair(st, session, pid);
    CartApi.RowIffQty(o.store, uid, pid);
  }

  /** The signed-in `add` of a catalog product moves the server's quantity
      exactly as the guest `add` moves the local one. */
  lemma AddAgreesWithGuest(st: Store, session: Option<Auth.Claims>, listed: seq<CartApi.ListedItem>,
                           items: seq<LocalCart.Item>, p: LocalCart.Product, qty: Option<int>)
    requires Valid(st) && CartApi.CallerId(session).Some?
    requires UserExists(st.users, CartApi.CallerId(session).value) && ProductExists(st.products, p.id)
    requires p.id != "" && qty.GetOr(1) >= 1
    ensures var uid := CartApi.CallerId(session).value;
      var after := SignedInStep(st, session, listed, AddItem(p, qty)).store;
      && QtyOf(after.cart, uid, p.id) - QtyOf(st.cart, uid, p.id)
         == LocalCart.QtyOfId(GuestStep(items, AddItem(p, qty)), p.id) - LocalCart.QtyOfId(items, p.id)
      && OtherRows(after.cart, uid) == OtherRows(st.cart, uid)
  {
    var uid := CartApi.CallerId(session).value;
    var body := AddBody(p, qty);
    assert Get(body, "productId") == Str(p.id) && Get(body, "qty") == Num(qty.GetOr(1));
    var o := CartApi.Handle(st, session, CartApi.AddReq(body));
    assert Run(st, session, Requests(AddItem(p, qty), listed)) == o.store by {
      assert Requests(AddItem(p, qty), listed)[1..] == [];
    }
    assert o == CartApi.AddRow(st, uid, p.id, qty.GetOr(1));
    LocalCart.AddQtyOfId(items, p, qty, p.id);
  }

  /** A quantity of 0 is where the two carts part: the route falls back to
      adding one, the guest cart adds the quantity as given, i.e. nothing. */
  lemma ZeroQtyDisagrees(st: Store, session: Option<Auth.Claims>, listed: seq<CartApi.ListedItem>,
                         items: seq<LocalCart.Item>, p: LocalCart.Product)
    requires Valid(st) && CartApi.CallerId(session).Some?
    requires UserExists(st.users, CartApi.CallerId(session).value) && ProductExists(st.products, p.id)
    requires p.id != ""
    ensures var uid := CartApi.CallerId(session).value;
      var after := SignedInStep(st, session, listed, AddItem(p, Some(0))).store;
      && QtyOf(after.cart, uid, p.id) == QtyOf(st.cart, uid, p.id) + 1
      && LocalCart.QtyOfId(GuestStep(items, AddItem(p, Some(0))), p.id) == LocalCart.QtyOfId(items, p.id)
  {
    var uid := CartApi.CallerId(session).value;
    var body := AddBody(p, Some(0));
    assert Get(body, "productId") == Str(p.id) && Get(body, "qty") == Num(0);
    var o := CartApi.Handle(st, session, CartApi.AddReq(body));
    assert Run(st, session, Requests(AddItem(p, Some(0)), listed)) == o.store by {
      assert Requests(AddItem(p, Some(0)), listed)[1..] == [];
    }
    assert o == CartApi.AddRow(st, uid, p.id, 1);
    LocalCart.AddQtyOfId(items, p, Some(0), p.id);
  }
}

=== FILE: js.dfy ===
/**
 * JavaScript values as the handlers see them: decoded token claims and the
 * fields of JSON request bodies. Numbers are integers here (see README).
 */
module Js {
  import opened Maybe
  import Text

  datatype Value =
    | Undefined
    | Null
    | Bool(b: bool)
    | Num(n: int)
    | Str(s: string)

  /** JavaScript truthiness: `undefined`, `null`, `false`, `0` and `""` are falsy. */
  predicate Truthy(v: Value) {
    match v
    case Undefined => false
    case Null => false
    case Bool(b) => b
    case Num(n) => n != 0
    case Str(s) => s != ""
  }

  /** The outcome of `await req.json()`: it throws on a body that is not JSON,
      yields `null`, or yields an object (any other JSON value destructures
      like an object without fields). */
  datatype Body = Malformed | JsonNull | Object(fields: map<string, Value>)

  /** Reads one field of `body || {}`; a missing field is `undefined`. */
  function Get(body: Body, name: string): (v: Value)
    ensures !body.Object? ==> v == Undefined
    ensures body.Object? && name !in body.fields ==> v == Undefined
  {
    match body
    case Object(fields) => if name in fields then fields[name] else Undefined
    case _ => Undefined
  }

  /** An object body built from `JSON.stringify` of the given fields. */
  function Json(fields: map<string, Value>): Body {
    Object(fields)
  }

  predicate IsDigit(c: char) {
    '0' <= c <= '9'
  }

  predicate AllDigits(s: string) {
    forall i | 0 <= i < |s| :: IsDigit(s[i])
  }

  /** The value of a run of decimal digits, most significant first. */
  function DigitsValue(s: string): nat
    requires AllDigits(s)
  {
    if s == [] then 0 else DigitsValue(s[..|s| - 1]) * 10 + (s[|s| - 1] as int - '0' as int)
  }

  /** `Number(s)` on a string; `None` stands for `NaN`. Whitespace around the
      text is ignored, the empty text is 0, and an optional sign may precede
      the decimal digits. */
  function NumberOf(s: string): Option<int> {
    var t := Text.Trim(s);
    if t == [] then Some(0)
    else if (t[0] == '+' || t[0] == '-') && |t| > 1 && AllDigits(t[1..]) then
      Some(if t[0] == '-' then 0 - DigitsValue(t[1..]) as int else DigitsValue(t[1..]))
    else if AllDigits(t) then Some(DigitsValue(t))
    else None
  }

  function DigitChar(d: nat): (c: char)
    requires d < 10
    ensures IsDigit(c) && c as int - '0' as int == d
  {
    ('0' as int + d) as char
  }

  /** `String(n)` for a non-negative integer: its decimal digits, which read
      back as `n`. */
  function Decimal(n: nat): (r: string)
    ensures r != [] && AllDigits(r)
    ensures DigitsValue(r) == n
  {
    if n < 10 then
      var r := [DigitChar(n)];
      assert r[..0] == [];
      r
    else
      var p := Decimal(n / 10);
      var r := p + [DigitChar(n % 10)];
      assert r[..|r| - 1] == p;
      r
  }

  /** A user id that went through `String(...)` is read back by `Number(...)`. */
  lemma NumberOfDecimal(n: nat)
    ensures NumberOf(Decimal(n)) == Some(n)
  {
    var s := Decimal(n);
    assert Text.NoSpace(s) by {
      forall i | 0 <= i < |s| ensures !Text.IsSpace(s[i]) {
        assert IsDigit(s[i]);
      }
    }
    assert Text.Trim(s) == s;
    assert IsDigit(s[0]);
  }
}

=== FILE: local_cart.dfy ===
/**
 * The browser-side cart list, as both cart providers keep it for a guest:
 * merge-by-id add, remove by id, clear, and the two folds the header shows,
 * the item count and the price total.
 */
module LocalCart {
  import opened Maybe
  import opened Seqs

  datatype Product = Product(id: string, name: string, image: string, price: int)

  /** `{ ...product, qty }`. */
  datatype Item = Item(id: string, name: string, image: string, price: int, qty: int)

  function ItemOf(p: Product, qty: int): (it: Item)
    ensures it.id == p.id && it.price == p.price && it.qty == qty
  {
    Item(p.id, p.name, p.image, p.price, qty)
  }

  function HasId(id: string): Item -> bool {
    (it: Item) => it.id == id
  }

  function LacksId(id: string): Item -> bool {
    (it: Item) => it.id != id
  }

  predicate DistinctIds(items: seq<Item>) {
    forall i, j | 0 <= i < j < |items| :: items[i].id != items[j].id
  }

  function ItemQty(it: Item): int {
    it.qty
  }

  function LineTotal(it: Item): int {
    it.price * it.qty
  }

  /** `count`: the quantities summed. */
  function Count(items: seq<Item>): int {
    Sum(items, ItemQty)
  }

  /** `total`: price times quantity, summed. */
  function Total(items: seq<Item>): int {
    Sum(items, LineTotal)
  }

  function QtyIfId(id: string): Item -> int {
    (it: Item) => if it.id == id then it.qty else 0
  }

  /** How many of product `id` the list holds, wherever its entries are. */
  function QtyOfId(items: seq<Item>, id: string): int {
    Sum(items, QtyIfId(id))
  }

  /** `add(product, qty = 1)`: an entry with the product's id gets `qty`
      more, in place; otherwise the product is appended with `qty`. */
  function Add(items: seq<Item>, p: Product, qty: Option<int>): (r: seq<Item>)
    ensures var q := qty.GetOr(1);
      match FirstIndex(items, HasId(p.id))
      case Some(i) =>
        && |r| == |items|
        && r[i] == items[i].(qty := items[i].qty + q)
        && (forall j | 0 <= j < |items| && j != i :: r[j] == items[j])
      case None => r == items + [ItemOf(p, q)]
  {
    var q := qty.GetOr(1);
    match FirstIndex(items, HasId(p.id))
    case Some(i) => items[i := items[i].(qty := items[i].qty + q)]
    case None => items + [ItemOf(p, q)]
  }

  /** `remove(id)`: every entry with that id goes, the rest keep their order. */
  function Remove(items: seq<Item>, id: string): (r: seq<Item>)
    ensures forall k | 0 <= k < |r| :: r[k].id != id
    ensures IsSubsequence(r, items)
  {
    FilterIsSubsequence(items, LacksId(id));
    Filter(items, LacksId(id))
  }

  /** `clear()`: no entries at all, so nothing is counted or priced. */
  function Clear(): (r: seq<Item>)
    ensures |r| == 0
    ensures Count(r) == 0 && Total(r) == 0
    ensures forall id :: QtyOfId(r, id) == 0
  {
    []
  }

  /** After `clear`, adding a product leaves that product's single entry. */
  lemma ClearThenAdd(p: Product, qty: Option<int>)
    ensures Add(Clear(), p, qty) == [ItemOf(p, qty.GetOr(1))]
  {
  }

  // ----- add -----

  /** An omitted quantity adds one. */
  lemma AddDefaultsToOne(items: seq<Item>, p: Product)
    ensures Add(items, p, None) == Add(items, p, Some(1))
  {
  }

  /** Adding moves the held quantity of the added product by `qty` and of no
      other product. */
  lemma AddQtyOfId(items: seq<Item>, p: Product, qty: Option<int>, id: string)
    ensures QtyOfId(Add(items, p, qty), id) == QtyOfId(items, id) + (if id == p.id then qty.GetOr(1) else 0)
  {
    var q := qty.GetOr(1);
    match FirstIndex(items, HasId(p.id))
    case Some(i) =>
      SumUpdate(items, i, items[i].(qty := items[i].qty + q), QtyIfId(id));
    case None =>
      SumConcat(items, [ItemOf(p, q)], QtyIfId(id));
  }

  /** The count goes up by exactly the added quantity. */
  lemma AddCount(items: seq<Item>, p: Product, qty: Option<int>)
    ensures Count(Add(items, p, qty)) == Count(items) + qty.GetOr(1)
  {
    var q := qty.GetOr(1);
    match FirstIndex(items, HasId(p.id))
    case Some(i) =>
      SumUpdate(items, i, items[i].(qty := items[i].qty + q), ItemQty);
    case None =>
      SumConcat(items, [ItemOf(p, q)], ItemQty);
  }

  /** The total goes up by the added quantity at the price of the entry it
      lands in: the stored entry's price when merged, the product's when new. */
  lemma AddTotal(items: seq<Item>, p: Product, qty: Option<int>)
    ensures var q := qty.GetOr(1);
      Total(Add(items, p, qty)) == Total(items) +
        (match FirstIndex(items, HasId(p.id))
         case Some(i) => items[i].price * q
         case None => p.price * q)
  {
    var q := qty.GetOr(1);
    match FirstIndex(items, HasId(p.id))
    case Some(i) =>
      SumUpdate(items, i, items[i].(qty := items[i].qty + q), LineTotal);
      assert LineTotal(items[i].(qty := items[i].qty + q)) == LineTotal(items[i]) + items[i].price * q by {
        assert items[i].price * (items[i].qty + q) == items[i].price * items[i].qty + items[i].price * q;
      }
    case None =>
      SumConcat(items, [ItemOf(p, q)], LineTotal);
  }

  /** Merging by id keeps ids distinct, and the added id then has exactly
      one entry. */
  lemma AddKeepsDistinct(items: seq<Item>, p: Product, qty: Option<int>)
    requires DistinctIds(items)
    ensures DistinctIds(Add(items, p, qty))
    ensures exists k | 0 <= k < |Add(items, p, qty)| :: Add(items, p, qty)[k].id == p.id
  {
    var r := Add(items, p, qty);
    match FirstIndex(items, HasId(p.id))
    case Some(i) =>
      assert r[i].id == p.id;
      forall a, b | 0 <= a < b < |r| ensures r[a].id != r[b].id {
        assert r[a].id == items[a].id && r[b].id == items[b].id;
      }
    case None =>
      assert r[|items|].id == p.id;
      forall a, b | 0 <= a < b < |r| ensures r[a].id != r[b].id {
        if b == |items| {
          assert !HasId(p.id)(items[a]);
        }
      }
  }

  // ----- remove and clear -----

  /** An entry survives removal exactly when it had another id. */
  lemma RemoveMembership(items: seq<Item>, id: string, x: Item)
    ensures x in Remove(items, id) <==> x in items && x.id != id
  {
    FilterMembership(items, LacksId(id), x);
  }

  /** Removal takes away exactly the quantity held under that id. */
  lemma {:induction false} RemoveCount(items: seq<Item>, id: string)
    ensures Count(Remove(items, id)) == Count(items) - QtyOfId(items, id)
    ensures QtyOfId(Remove(items, id), id) == 0
  {
    if items != [] {
      RemoveCount(items[1..], id);
      var head := if items[0].id != id then [items[0]] else [];
      assert Filter(items, LacksId(id)) == head + Filter(items[1..], LacksId(id));
      SumConcat(head, Filter(items[1..], LacksId(id)), ItemQty);
      SumConcat(head, Filter(items[1..], LacksId(id)), QtyIfId(id));
    }
  }

  /** Removing an id that is not present changes nothing. */
  lemma RemoveAbsent(items: seq<Item>, id: string)
    requires forall k | 0 <= k < |items| :: items[k].id != id
    ensures Remove(items, id) == items
  {
    FilterKeepsAll(items, LacksId(id));
  }

  /** A list whose quantities are all at least 1 counts at least its length. */
  lemma {:induction false} CountPositive(items: seq<Item>)
    requires forall k | 0 <= k < |items| :: items[k].qty >= 1
    ensures Count(items) >= |items|
  {
    if items != [] {
      CountPositive(items[1..]);
    }
  }
}

=== FILE: maybe.dfy ===
/** An optional value: `null`/`undefined` results, absent rows and absent fields. */
module Maybe {

  datatype Option<+T> = None | Some(value: T) {

    /** The value, or `default` when there is none (JavaScript's `?? default`). */
    function GetOr(default: T): T {
      match this
      case Some(v) => v
      case None => default
    }
  }
}

=== FILE: navbar.dfy ===
/**
 * The header's pure parts: the cart badge, the search link, what logout
 * resets, and how the signed-in user is shown.
 */
module Navbar {
  import opened Maybe
  import opened Seqs
  import opened Store
  import Text
  import Auth
  import CartApi
  import CartPage
  import ProductSearch

  /** `it.qty || 0`: on an integer quantity this is the quantity itself,
      since the only falsy integer is 0. */
  function QtyOrZero(it: CartApi.ListedItem): int {
    it.qty
  }

  /** `loadCartCount()`: `None` is a request that threw. A response that is
      not OK, or whose `items` is not an array, counts 0. */
  function BadgeCount(resp: Option<CartApi.Response>): (n: int)
    ensures resp.None? ==> n == 0
    ensures resp.Some? && !(200 <= resp.value.status < 300) ==> n == 0
    ensures resp.Some? && !resp.value.reply.Items? ==> n == 0
  {
    match resp
    case None => 0
    case Some(r) =>
      if !(200 <= r.status < 300) then 0
      else if r.reply.Items? then Sum(r.reply.items, QtyOrZero)
      else 0
  }

  /** Against the route, the badge is 0 without a session and otherwise the
      caller's total quantity, the same count the cart page shows. */
  lemma BadgeFromRoute(st: Store, session: Option<Auth.Claims>)
    ensures CartApi.CallerId(session).None? ==> BadgeCount(Some(CartApi.List(st, session))) == 0
    ensures CartApi.CallerId(session).Some? ==>
      BadgeCount(Some(CartApi.List(st, session))) == CartPage.TotalCount(CartApi.Listing(st, CartApi.CallerId(session).value))
    ensures Valid(st) ==> BadgeCount(Some(CartApi.List(st, session))) >= 0
  {
    if CartApi.CallerId(session).Some? {
      var uid := CartApi.CallerId(session).value;
      SumPointwise(CartApi.Listing(st, uid), QtyOrZero, CartPage.LineQty);
      if Valid(st) {
        CartPage.CountIsCallersQuantity(st, uid);
      }
    }
  }

  // ----- search -----

  const ProductsPath: string := "/products"
  const SearchPrefix: string := "/products?search="

  /** `onSearch`: the trimmed term, percent-encoded by `encode`
      (`encodeURIComponent`), or the bare products path when it is blank. */
  function SearchPath(q: string, encode: string -> string): (path: string)
    ensures Text.AllSpace(q) ==> path == ProductsPath
    ensures !Text.AllSpace(q) ==> path == SearchPrefix + encode(Text.Trim(q))
  {
    var term := Text.Trim(q);
    if term != "" then SearchPrefix + encode(term) else ProductsPath
  }

  /** The `search` parameter the products page reads from a path; `decode`
      is the URL decoding. */
  function SearchParam(path: string, decode: string -> string): Option<string> {
    if |path| >= |SearchPrefix| && path[..|SearchPrefix|] == SearchPrefix then Some(decode(path[|SearchPrefix|..]))
    else None
  }

  ghost predicate Inverse(encode: string -> string, decode: string -> string) {
    forall s :: decode(encode(s)) == s
  }

  /** A search from the header reaches the products page as the trimmed term,
      so the page filters by that term lowercased; a blank search lists all. */
  lemma SearchReachesPage(q: string, encode: string -> string, decode: string -> string)
    requires Inverse(encode, decode)
    ensures Text.AllSpace(q) ==> SearchParam(SearchPath(q, encode), decode) == None
    ensures !Text.AllSpace(q) ==> SearchParam(SearchPath(q, encode), decode) == Some(Text.Trim(q))
    ensures ProductSearch.PageTerm(SearchParam(SearchPath(q, encode), decode)) == Text.Lower(Text.Trim(q))
  {
    var path := SearchPath(q, encode);
    if !Text.AllSpace(q) {
      assert path[..|SearchPrefix|] == SearchPrefix;
      assert path[|SearchPrefix|..] == encode(Text.Trim(q));
    }
  }

  // ----- logout and the user menu -----

  datatype Header = Header(user: Option<Auth.SafeUser>, menuOpen: bool, userMenuOpen: bool, cartCount: int)

  /** `handleLogout()`: `failed` says whether the logout request threw. */
  function Logout(h: Header, failed: bool): (h': Header)
    ensures h'.user.None? && !h'.menuOpen && !h'.userMenuOpen && h'.cartCount == 0
  {
    Header(None, false, false, 0)
  }

  /** Logout ends in the same state whatever came before and whether or not
      the request went through. */
  lemma LogoutForgetsEverything(a: Header, b: Header, failedA: bool, failedB: bool)
    ensures Logout(a, failedA) == Logout(b, failedB)
  {
  }

  /** `user.displayName || "User"`. */
  function ShownName(u: Auth.SafeUser): (s: string)
    ensures s != ""
    ensures u.displayName != "" ==> s == u.displayName
  {
    if u.displayName != "" then u.displayName else "User"
  }

  /** `user.role || "USER"`. */
  function ShownRole(u: Auth.SafeUser): (s: string)
    ensures s != ""
    ensures u.role != "" ==> s == u.role
  {
    if u.role != "" then u.role else "USER"
  }

  /** The Admin Panel link: only for the exact role "ADMIN". */
  predicate ShowsAdminLink(u: Auth.SafeUser) {
    u.role == "ADMIN"
  }

  /** For a user as the server returns it, the "User" fallback is never
      reached: the shown name is the server's display name. */
  lemma ServerUserShownAsIs(row: UserRow)
    ensures ShownName(Auth.SafeUserOf(row)) == Auth.DisplayName(row.firstName, row.email)
    ensures row.role != "" ==> ShownRole(Auth.SafeUserOf(row)) == row.role
    ensures ShowsAdminLink(Auth.SafeUserOf(row)) <==> row.role == "ADMIN"
  {
  }
}

=== FILE: product_search.dfy ===
/**
 * Product search, as `/api/products` answers it and as the `/products`
 * page filters: a case-insensitive substring match on the product's name
 * or id, over the products newest first.
 */
module ProductSearch {
  import opened Maybe
  import opened Seqs
  import opened Store
  import Text

  /** A product is selected when its lowercased name or id contains `q`. */
  function Matches(q: string): ProductRow -> bool {
    (p: ProductRow) => Text.Contains(Text.Lower(p.name), q) || Text.Contains(Text.Lower(p.id), q)
  }

  /** `q ? all.filter(matches) : all`. */
  function Search(all: seq<ProductRow>, q: string): (r: seq<ProductRow>)
    ensures q == "" ==> r == all
    ensures |r| <= |all|
    ensures IsSubsequence(r, all)
  {
    if q == "" then
      assert Embeds(all, all, seq(|all|, i requires 0 <= i < |all| => i));
      all
    else
      FilterIsSubsequence(all, Matches(q));
      Filter(all, Matches(q))
  }

  /** `findMany({ orderBy: { createdAt: "desc" } })`. */
  function NewestFirst(st: Store): seq<ProductRow> {
    Reverse(st.products)
  }

  /** `searchParams.get("search")?.toLowerCase() || ""` in the route: an
      absent parameter gives "", and on a string `|| ""` changes nothing. */
  function ApiQuery(search: Option<string>): (q: string)
    ensures search.None? ==> q == ""
  {
    match search
    case Some(s) => Text.Lower(s)
    case None => ""
  }

  /** `GET /api/products?search=...`. */
  function ApiSearch(st: Store, search: Option<string>): seq<ProductRow> {
    Search(NewestFirst(st), ApiQuery(search))
  }

  /** `searchParams?.search || ""`, then lowercased, on the page: an absent
      parameter gives "", and on a string `|| ""` changes nothing. */
  function PageTerm(search: Option<string>): (t: string)
    ensures search.None? ==> t == ""
  {
    var q := search.GetOr("");
    Text.Lower(q)
  }

  /** The `/products` page's list. */
  function PageFilter(st: Store, search: Option<string>): seq<ProductRow> {
    Search(NewestFirst(st), PageTerm(search))
  }

  /** Every query, the empty one included, keeps exactly the matching
      products. */
  lemma SearchMembership(all: seq<ProductRow>, q: string, p: ProductRow)
    ensures p in Search(all, q) <==> p in all && Matches(q)(p)
  {
    if q == "" {
      Text.ContainsEmpty(Text.Lower(p.name));
    } else {
      FilterMembership(all, Matches(q), p);
    }
  }

  /** Searching the result again with the same query changes nothing. */
  lemma SearchIdempotent(all: seq<ProductRow>, q: string)
    ensures Search(Search(all, q), q) == Search(all, q)
  {
    if q != "" {
      FilterIdempotent(all, Matches(q));
    }
  }

  /** The route and the page select the same products for every `search`. */
  lemma PageAgreesWithApi(st: Store, search: Option<string>)
    ensures PageFilter(st, search) == ApiSearch(st, search)
  {
  }

  /** Every product is strictly newer than the ones after it. */
  predicate CreatedDescending(rows: seq<ProductRow>) {
    forall i, j | 0 <= i < j < |rows| :: rows[i].createdAt > rows[j].createdAt
  }

  /** In a valid store the route's order is strictly by `createdAt`,
      descending, which is what `orderBy: { createdAt: "desc" }` asks for. */
  lemma NewestFirstDescends(st: Store)
    ensures Valid(st) ==> CreatedDescending(NewestFirst(st))
  {
    if Valid(st) {
      var ps := st.products;
      var rows := NewestFirst(st);
      forall i, j | 0 <= i < j < |rows|
        ensures rows[i].createdAt > rows[j].createdAt
      {
        assert rows[i] == ps[|ps| - 1 - i] && rows[j] == ps[|ps| - 1 - j];
        assert ProductsApart(ps[|ps| - 1 - j], ps[|ps| - 1 - i]);
      }
    }
  }

  /** An empty query keeps the whole listing. */
  lemma EmptyQueryKeepsAll(st: Store, search: Option<string>)
    requires search == None || search == Some("")
    ensures ApiSearch(st, search) == NewestFirst(st)
  {
    assert ApiQuery(Some("")) == "" by {
      assert |Text.Lower("")| == 0;
    }
  }

  /** Without a query, the route returns every product, newest first. */
  lemma NoQueryListsAll(st: Store)
    ensures ApiSearch(st, None) == NewestFirst(st)
    ensures ApiSearch(st, Some("")) == NewestFirst(st)
    ensures Valid(st) ==> CreatedDescending(ApiSearch(st, None))
  {
    EmptyQueryKeepsAll(st, None);
    EmptyQueryKeepsAll(st, Some(""));
    NewestFirstDescends(st);
  }

  /** Without a query, position `i` of the route's answer holds the product
      stored `i`-th from the end: the newest one comes first. */
  lemma NoQueryReversesStore(st: Store)
    ensures |ApiSearch(st, None)| == |st.products|
    ensures forall i | 0 <= i < |st.products| :: ApiSearch(st, None)[i] == st.products[|st.products| - 1 - i]
  {
    EmptyQueryKeepsAll(st, None);
  }

  /** The search ignores the case of the query's ASCII letters. */
  lemma QueryCaseIgnored(st: Store, a: string, b: string)
    requires Text.Lower(a) == Text.Lower(b)
    ensures ApiSearch(st, Some(a)) == ApiSearch(st, Some(b))
  {
  }

  /** A product is returned by the route exactly when it is stored and matches. */
  lemma ApiSearchMembership(st: Store, search: Option<string>, p: ProductRow)
    ensures p in ApiSearch(st, search) <==> p in st.products && Matches(ApiQuery(search))(p)
  {
    SearchMembership(NewestFirst(st), ApiQuery(search), p);
    var all := NewestFirst(st);
    if p in st.products {
      var k :| 0 <= k < |st.products| && st.products[k] == p;
      assert all[|st.products| - 1 - k] == p;
    }
  }
}

=== FILE: seqs.dfy ===
/**
 * Sequence combinators shared by the model: `Array.prototype.filter`,
 * reversal, `reduce` with `+`, and the order-preserving embedding that says
 * one list is a subsequence of another.
 */
module Seqs {
  import opened Maybe

  /** `s.findIndex(p)` (and the ORM's `findFirst`/`findUnique`): the first
      position whose element passes `p`, or `None` when none does. */
  function FirstIndex<T>(s: seq<T>, p: T -> bool): (r: Option<nat>)
    ensures r.Some? ==> r.value < |s| && p(s[r.value])
    ensures r.Some? ==> forall j | 0 <= j < r.value :: !p(s[j])
    ensures r.None? <==> forall j | 0 <= j < |s| :: !p(s[j])
  {
    if s == [] then None
    else if p(s[0]) then Some(0)
    else
      match FirstIndex(s[1..], p)
      case None => None
      case Some(k) => Some(k + 1)
  }

  /** `s.filter(keep)`: the kept elements, in their original order. */
  function Filter<T(!new)>(s: seq<T>, keep: T -> bool): (r: seq<T>)
    ensures |r| <= |s|
    ensures forall i | 0 <= i < |r| :: keep(r[i])
  {
    if s == [] then [] else (if keep(s[0]) then [s[0]] else []) + Filter(s[1..], keep)
  }

  /** An element is in the filtered list exactly when it is in the input and passes. */
  lemma {:induction false} FilterMembership<T(!new)>(s: seq<T>, keep: T -> bool, x: T)
    ensures x in Filter(s, keep) <==> x in s && keep(x)
  {
    if s != [] {
      FilterMembership(s[1..], keep, x);
      assert s == [s[0]] + s[1..];
    }
  }

  lemma {:induction false} FilterConcat<T(!new)>(a: seq<T>, b: seq<T>, keep: T -> bool)
    ensures Filter(a + b, keep) == Filter(a, keep) + Filter(b, keep)
  {
    if a != [] {
      assert (a + b)[1..] == a[1..] + b;
      FilterConcat(a[1..], b, keep);
    } else {
      assert a + b == b;
    }
  }

  /** Leaving out an element the filter drops anyway changes nothing. */
  lemma FilterSkip<T(!new)>(a: seq<T>, x: T, b: seq<T>, keep: T -> bool)
    requires !keep(x)
    ensures Filter(a + [x] + b, keep) == Filter(a + b, keep)
  {
    assert Filter([x], keep) == [] by {
      assert [x][1..] == [];
    }
    FilterConcat(a + [x], b, keep);
    FilterConcat(a, [x], keep);
    FilterConcat(a, b, keep);
  }

  /** Filtering keeps everything when every element passes. */
  lemma {:induction false} FilterKeepsAll<T(!new)>(s: seq<T>, keep: T -> bool)
    requires forall i | 0 <= i < |s| :: keep(s[i])
    ensures Filter(s, keep) == s
  {
    if s != [] {
      FilterKeepsAll(s[1..], keep);
      assert [s[0]] + s[1..] == s;
    }
  }

  /** Filtering drops everything when nothing passes. */
  lemma {:induction false} FilterDropsAll<T(!new)>(s: seq<T>, keep: T -> bool)
    requires forall i | 0 <= i < |s| :: !keep(s[i])
    ensures Filter(s, keep) == []
  {
    if s != [] {
      FilterDropsAll(s[1..], keep);
    }
  }

  /** Filtering twice with the same test is filtering once. */
  lemma FilterIdempotent<T(!new)>(s: seq<T>, keep: T -> bool)
    ensures Filter(Filter(s, keep), keep) == Filter(s, keep)
  {
    FilterKeepsAll(Filter(s, keep), keep);
  }

  /** `idx` maps each position of `a` to a position of `b` holding the same
      element, strictly increasingly: `a` is `b` with some elements left out. */
  ghost predicate Embeds<T>(a: seq<T>, b: seq<T>, idx: seq<int>) {
    && |idx| == |a|
    && (forall i | 0 <= i < |idx| :: 0 <= idx[i] < |b| && b[idx[i]] == a[i])
    && (forall i, j | 0 <= i < j < |idx| :: idx[i] < idx[j])
  }

  ghost predicate IsSubsequence<T>(a: seq<T>, b: seq<T>) {
    exists idx :: Embeds(a, b, idx)
  }

  /** The embedding of a filter result into its input. */
  lemma {:induction false} FilterEmbedding<T(!new)>(s: seq<T>, keep: T -> bool) returns (idx: seq<int>)
    ensures Embeds(Filter(s, keep), s, idx)
    ensures forall i | 0 <= i < |idx| :: 0 <= idx[i] < |s|
  {
    if s == [] {
      idx := [];
    } else {
      var rest := FilterEmbedding(s[1..], keep);
      var shifted := seq(|rest|, i requires 0 <= i < |rest| => rest[i] + 1);
      if keep(s[0]) {
        idx := [0] + shifted;
      } else {
        idx := shifted;
      }
    }
  }

  lemma FilterIsSubsequence<T(!new)>(s: seq<T>, keep: T -> bool)
    ensures IsSubsequence(Filter(s, keep), s)
  {
    var idx := FilterEmbedding(s, keep);
  }

  /** Leaving out position `k` embeds the rest into the original. */
  lemma DeleteEmbedding<T>(s: seq<T>, k: int) returns (idx: seq<int>)
    requires 0 <= k < |s|
    ensures Embeds(s[..k] + s[k + 1..], s, idx)
  {
    idx := seq(|s| - 1, i requires 0 <= i < |s| - 1 => if i < k then i else i + 1);
  }

  /** `rel` holds between every element and every later one. */
  predicate Pairwise<T>(s: seq<T>, rel: (T, T) -> bool) {
    forall i, j | 0 <= i < j < |s| :: rel(s[i], s[j])
  }

  /** A relation that holds pairwise in `b` still holds in a subsequence of `b`. */
  lemma PairwiseEmbedded<T>(a: seq<T>, b: seq<T>, idx: seq<int>, rel: (T, T) -> bool)
    requires Embeds(a, b, idx) && Pairwise(b, rel)
    ensures Pairwise(a, rel)
  {
    forall i, j | 0 <= i < j < |a|
      ensures rel(a[i], a[j])
    {
      assert a[i] == b[idx[i]] && a[j] == b[idx[j]];
    }
  }

  /** The elements in the opposite order. */
  function Reverse<T>(s: seq<T>): (r: seq<T>)
    ensures |r| == |s|
    ensures forall i | 0 <= i < |s| :: r[i] == s[|s| - 1 - i]
  {
    if s == [] then [] else Reverse(s[1..]) + [s[0]]
  }

  /** `s.reduce((acc, x) => acc + f(x), 0)`. */
  function Sum<T>(s: seq<T>, f: T -> int): int {
    if s == [] then 0 else f(s[0]) + Sum(s[1..], f)
  }

  lemma {:induction false} SumConcat<T>(a: seq<T>, b: seq<T>, f: T -> int)
    ensures Sum(a + b, f) == Sum(a, f) + Sum(b, f)
  {
    if a != [] {
      assert (a + b)[1..] == a[1..] + b;
      SumConcat(a[1..], b, f);
    } else {
      assert a + b == b;
    }
  }

  /** A sum of terms that are all zero is zero. */
  lemma {:induction false} SumZero<T>(s: seq<T>, f: T -> int)
    requires forall i | 0 <= i < |s| :: f(s[i]) == 0
    ensures Sum(s, f) == 0
  {
    if s != [] {
      SumZero(s[1..], f);
    }
  }

  /** A sum of non-negative terms is non-negative, and positive when some term is. */
  lemma {:induction false} SumNonNegative<T>(s: seq<T>, f: T -> int)
    requires forall i | 0 <= i < |s| :: f(s[i]) >= 0
    ensures Sum(s, f) >= 0
    ensures (exists i | 0 <= i < |s| :: f(s[i]) > 0) ==> Sum(s, f) > 0
  {
    if s != [] {
      SumNonNegative(s[1..], f);
      if exists i | 0 <= i < |s| :: f(s[i]) > 0 {
        var i :| 0 <= i < |s| && f(s[i]) > 0;
        if i > 0 {
          assert s[1..][i - 1] == s[i];
        }
      }
    }
  }
  /** Replacing one element moves the sum by the difference of its terms. */
  lemma SumUpdate<T>(s: seq<T>, i: int, x: T, f: T -> int)
    requires 0 <= i < |s|
    ensures Sum(s[i := x], f) == Sum(s, f) - f(s[i]) + f(x)
  {
    assert s[i := x] == s[..i] + [x] + s[i + 1..];
    assert s == s[..i] + [s[i]] + s[i + 1..];
    SumConcat(s[..i] + [x], s[i + 1..], f);
    SumConcat(s[..i], [x], f);
    SumConcat(s[..i] + [s[i]], s[i + 1..], f);
    SumConcat(s[..i], [s[i]], f);
  }

  /** Sums of terms that agree element by element are equal. */
  lemma {:induction false} SumPointwise<T>(s: seq<T>, f: T -> int, g: T -> int)
    requires forall i | 0 <= i < |s| :: f(s[i]) == g(s[i])
    ensures Sum(s, f) == Sum(s, g)
  {
    if s != [] {
      SumPointwise(s[1..], f, g);
    }
  }
  /** Two lists of equal length whose terms agree position by position have
      equal sums, whatever their element types. */
  lemma {:induction false} SumCorrespond<A, B>(s: seq<A>, f: A -> int, t: seq<B>, g: B -> int)
    requires |s| == |t| && forall i | 0 <= i < |s| :: f(s[i]) == g(t[i])
    ensures Sum(s, f) == Sum(t, g)
  {
    if s != [] {
      SumCorrespond(s[1..], f, t[1..], g);
    }
  }

  /** Order does not matter to a sum: reversal keeps it. */
  lemma {:induction false} SumReverse<T>(s: seq<T>, f: T -> int)
    ensures Sum(Reverse(s), f) == Sum(s, f)
  {
    if s != [] {
      SumReverse(s[1..], f);
      SumConcat(Reverse(s[1..]), [s[0]], f);
    }
  }
}

=== FILE: store.dfy ===
/**
 * The relational store the handlers reach through the ORM: users, products
 * and cart rows, with the constraints the database enforces (unique keys,
 * foreign keys, autoincrement ids and a `createdAt` that grows with every
 * insert). Rows are kept in insertion order.
 */
module Store {
  import opened Maybe
  import opened Seqs

  /** `password` holds the stored bcrypt hash; `null` is `None`. */
  datatype UserRow = UserRow(
    id: int,
    email: string,
    password: Option<string>,
    role: string,
    firstName: Option<string>,
    lastName: Option<string>)

  datatype ProductRow = ProductRow(id: string, name: string, price: int, image: string, createdAt: int)

  datatype CartRow = CartRow(id: int, userId: int, productId: string, qty: int, createdAt: int)

  /** `clock` is the `createdAt` the next insert receives; `nextUserId` and
      `nextCartId` are the next autoincrement ids. */
  datatype Store = Store(
    users: seq<UserRow>,
    products: seq<ProductRow>,
    cart: seq<CartRow>,
    nextUserId: int,
    nextCartId: int,
    clock: int)

  // ----- keys and lookups -----

  function UserHasId(id: int): UserRow -> bool {
    (u: UserRow) => u.id == id
  }

  function UserHasEmail(email: string): UserRow -> bool {
    (u: UserRow) => u.email == email
  }

  function ProductHasId(id: string): ProductRow -> bool {
    (p: ProductRow) => p.id == id
  }

  /** `prisma.user.findUnique({ where: { id } })`. */
  function FindUser(users: seq<UserRow>, id: int): (r: Option<UserRow>)
    ensures r.Some? ==> r.value in users && r.value.id == id
    ensures r.None? <==> forall k | 0 <= k < |users| :: users[k].id != id
  {
    match FirstIndex(users, UserHasId(id))
    case Some(k) => Some(users[k])
    case None => None
  }

  /** `prisma.user.findUnique({ where: { email } })`. */
  function FindUserByEmail(users: seq<UserRow>, email: string): (r: Option<UserRow>)
    ensures r.Some? ==> r.value in users && r.value.email == email
    ensures r.None? <==> forall k | 0 <= k < |users| :: users[k].email != email
  {
    match FirstIndex(users, UserHasEmail(email))
    case Some(k) => Some(users[k])
    case None => None
  }

  predicate UserExists(users: seq<UserRow>, id: int) {
    exists k | 0 <= k < |users| :: users[k].id == id
  }

  predicate ProductExists(products: seq<ProductRow>, id: string) {
    exists k | 0 <= k < |products| :: products[k].id == id
  }

  // ----- constraints -----

  predicate UsersApart(a: UserRow, b: UserRow) {
    a.id != b.id && a.email != b.email
  }

  predicate ProductsApart(a: ProductRow, b: ProductRow) {
    a.id != b.id && a.createdAt < b.createdAt
  }

  /** Distinct ids, at most one row per (user, product), insertion order by `createdAt`. */
  predicate CartApart(a: CartRow, b: CartRow) {
    && a.id != b.id
    && (a.userId != b.userId || a.productId != b.productId)
    && a.createdAt < b.createdAt
  }

  /** A cart row has a positive quantity, an already issued id and timestamp,
      and refers to an existing user and product. */
  predicate CartRowFits(st: Store, r: CartRow) {
    && r.qty >= 1
    && 1 <= r.id < st.nextCartId
    && r.createdAt < st.clock
    && UserExists(st.users, r.userId)
    && ProductExists(st.products, r.productId)
  }

  predicate Valid(st: Store) {
    && st.nextUserId >= 1
    && st.nextCartId >= 1
    && Pairwise(st.users, UsersApart)
    && (forall k | 0 <= k < |st.users| :: 1 <= st.users[k].id < st.nextUserId)
    && Pairwise(st.products, ProductsApart)
    && (forall k | 0 <= k < |st.products| :: st.products[k].createdAt < st.clock)
    && Pairwise(st.cart, CartApart)
    && (forall k | 0 <= k < |st.cart| :: CartRowFits(st, st.cart[k]))
  }

  // ----- views of the cart -----

  function OwnedBy(uid: int): CartRow -> bool {
    (r: CartRow) => r.userId == uid
  }

  function NotOwnedBy(uid: int): CartRow -> bool {
    (r: CartRow) => r.userId != uid
  }

  /** `prisma.cartItem.findMany({ where: { userId } })` before ordering. */
  function RowsOf(cart: seq<CartRow>, uid: int): seq<CartRow> {
    Filter(cart, OwnedBy(uid))
  }

  /** Every row that belongs to somebody other than `uid`, in order. */
  function OtherRows(cart: seq<CartRow>, uid: int): seq<CartRow> {
    Filter(cart, NotOwnedBy(uid))
  }

  function QtyFor(uid: int, pid: string): CartRow -> int {
    (r: CartRow) => if r.userId == uid && r.productId == pid then r.qty else 0
  }

  /** How many of product `pid` user `uid` holds: the cart seen as a bag. */
  function QtyOf(cart: seq<CartRow>, uid: int, pid: string): int {
    Sum(cart, QtyFor(uid, pid))
  }

  /** The ids of the rows `uid` owns. */
  function OwnedIds(cart: seq<CartRow>, uid: int): set<int> {
    set k | 0 <= k < |cart| && cart[k].userId == uid :: cart[k].id
  }

  // ----- how single-row edits move the views -----

  lemma Split(cart: seq<CartRow>, i: int, r: CartRow)
    requires 0 <= i < |cart|
    ensures cart[i := r] == cart[..i] + [r] + cart[i + 1..]
    ensures cart == cart[..i] + [cart[i]] + cart[i + 1..]
  {
  }

  /** Replacing a row of `uid` by another row of `uid` leaves the others' rows alone. */
  lemma ReplaceKeepsOthers(cart: seq<CartRow>, i: int, r: CartRow, uid: int)
    requires 0 <= i < |cart| && cart[i].userId == uid && r.userId == uid
    ensures OtherRows(cart[i := r], uid) == OtherRows(cart, uid)
  {
    Split(cart, i, r);
    var f := NotOwnedBy(uid);
    FilterConcat(cart[..i] + [r], cart[i + 1..], f);
    FilterConcat(cart[..i], [r], f);
    FilterConcat(cart[..i] + [cart[i]], cart[i + 1..], f);
    FilterConcat(cart[..i], [cart[i]], f);
  }

  lemma DeleteKeepsOthers(cart: seq<CartRow>, i: int, uid: int)
    requires 0 <= i < |cart| && cart[i].userId == uid
    ensures OtherRows(cart[..i] + cart[i + 1..], uid) == OtherRows(cart, uid)
  {
    Split(cart, i, cart[i]);
    FilterSkip(cart[..i], cart[i], cart[i + 1..], NotOwnedBy(uid));
  }

  lemma AppendKeepsOthers(cart: seq<CartRow>, r: CartRow, uid: int)
    requires r.userId == uid
    ensures OtherRows(cart + [r], uid) == OtherRows(cart, uid)
  {
    FilterConcat(cart, [r], NotOwnedBy(uid));
  }

  lemma ReplaceQty(cart: seq<CartRow>, i: int, r: CartRow, uid: int, pid: string)
    requires 0 <= i < |cart|
    ensures QtyOf(cart[i := r], uid, pid) == QtyOf(cart, uid, pid) - QtyFor(uid, pid)(cart[i]) + QtyFor(uid, pid)(r)
  {
    Split(cart, i, r);
    var f := QtyFor(uid, pid);
    SumConcat(cart[..i] + [r], cart[i + 1..], f);
    SumConcat(cart[..i], [r], f);
    SumConcat(cart[..i] + [cart[i]], cart[i + 1..], f);
    SumConcat(cart[..i], [cart[i]], f);
  }

  lemma DeleteQty(cart: seq<CartRow>, i: int, uid: int, pid: string)
    requires 0 <= i < |cart|
    ensures QtyOf(cart[..i] + cart[i + 1..], uid, pid) == QtyOf(cart, uid, pid) - QtyFor(uid, pid)(cart[i])
  {
    Split(cart, i, cart[i]);
    var f := QtyFor(uid, pid);
    SumConcat(cart[..i], cart[i + 1..], f);
    SumConcat(cart[..i] + [cart[i]], cart[i + 1..], f);
    SumConcat(cart[..i], [cart[i]], f);
  }

  lemma AppendQty(cart: seq<CartRow>, r: CartRow, uid: int, pid: string)
    ensures QtyOf(cart + [r], uid, pid) == QtyOf(cart, uid, pid) + QtyFor(uid, pid)(r)
  {
    SumConcat(cart, [r], QtyFor(uid, pid));
  }

  /** With no row for (uid, pid) the bag holds none of it. */
  lemma NoRowNoQty(cart: seq<CartRow>, uid: int, pid: string)
    requires forall k | 0 <= k < |cart| :: !(cart[k].userId == uid && cart[k].productId == pid)
    ensures QtyOf(cart, uid, pid) == 0
  {
    SumZero(cart, QtyFor(uid, pid));
  }

  /** Because pairs are unique, a row's quantity is the bag's count for its pair. */
  lemma UniqueRowQty(cart: seq<CartRow>, i: int)
    requires Pairwise(cart, CartApart) && 0 <= i < |cart|
    ensures QtyOf(cart, cart[i].userId, cart[i].productId) == cart[i].qty
  {
    var uid, pid := cart[i].userId, cart[i].productId;
    var f := QtyFor(uid, pid);
    Split(cart, i, cart[i]);
    SumConcat(cart[..i] + [cart[i]], cart[i + 1..], f);
    SumConcat(cart[..i], [cart[i]], f);
    var front, back := cart[..i], cart[i + 1..];
    forall k | 0 <= k < |front| ensures f(front[k]) == 0 {
      assert CartApart(cart[k], cart[i]);
    }
    SumZero(front, f);
    forall k | 0 <= k < |back| ensures f(back[k]) == 0 {
      assert back[k] == cart[i + 1 + k];
      assert CartApart(cart[i], cart[i + 1 + k]);
    }
    SumZero(cart[i + 1..], f);
  }

  // ----- the constraints survive single-row edits -----

  /** Changing only the quantity of a row, to a positive one, keeps the store valid. */
  lemma ReplaceKeepsValid(st: Store, i: int, r: CartRow)
    requires Valid(st) && 0 <= i < |st.cart|
    requires r == st.cart[i].(qty := r.qty) && r.qty >= 1
    ensures Valid(st.(cart := st.cart[i := r]))
  {
    var c := st.cart[i := r];
    forall a, b | 0 <= a < b < |c| ensures CartApart(c[a], c[b]) {
      assert CartApart(st.cart[a], st.cart[b]);
    }
    forall k | 0 <= k < |c| ensures CartRowFits(st, c[k]) {
      assert CartRowFits(st, st.cart[k]);
    }
  }

  lemma DeleteKeepsValid(st: Store, i: int)
    requires Valid(st) && 0 <= i < |st.cart|
    ensures Valid(st.(cart := st.cart[..i] + st.cart[i + 1..]))
  {
    var c := st.cart[..i] + st.cart[i + 1..];
    var idx := DeleteEmbedding(st.cart, i);
    PairwiseEmbedded(c, st.cart, idx, CartApart);
    forall k | 0 <= k < |c| ensures CartRowFits(st, c[k]) {
      assert c[k] == st.cart[idx[k]];
    }
  }

  /** Inserting a row for a fresh (user, product) pair, with the next id and
      timestamp, keeps the store valid. */
  lemma AppendKeepsValid(st: Store, r: CartRow)
    requires Valid(st)
    requires r.id == st.nextCartId && r.createdAt == st.clock && r.qty >= 1
    requires UserExists(st.users, r.userId) && ProductExists(st.products, r.productId)
    requires forall k | 0 <= k < |st.cart| :: !(st.cart[k].userId == r.userId && st.cart[k].productId == r.productId)
    ensures Valid(st.(cart := st.cart + [r], nextCartId := st.nextCartId + 1, clock := st.clock + 1))
  {
    var st' := st.(cart := st.cart + [r], nextCartId := st.nextCartId + 1, clock := st.clock + 1);
    var c := st'.cart;
    forall a, b | 0 <= a < b < |c| ensures CartApart(c[a], c[b]) {
      if b < |st.cart| {
        assert CartApart(st.cart[a], st.cart[b]);
      } else {
        assert CartRowFits(st, st.cart[a]);
      }
    }
    forall k | 0 <= k < |c| ensures CartRowFits(st', c[k]) {
      if k < |st.cart| {
        assert CartRowFits(st, st.cart[k]);
      }
    }
  }
  /** Deleting a row removes exactly its id from its owner's ids: no other
      row of that owner shares it. */
  lemma DeleteOwnedIds(cart: seq<CartRow>, i: int)
    requires Pairwise(cart, CartApart) && 0 <= i < |cart|
    ensures OwnedIds(cart[..i] + cart[i + 1..], cart[i].userId) == OwnedIds(cart, cart[i].userId) - {cart[i].id}
  {
    var uid := cart[i].userId;
    var c := cart[..i] + cart[i + 1..];
    forall x | x in OwnedIds(c, uid) ensures x in OwnedIds(cart, uid) && x != cart[i].id {
      var k :| 0 <= k < |c| && c[k].userId == uid && c[k].id == x;
      var j := if k < i then k else k + 1;
      assert c[k] == cart[j];
      OtherRowOtherId(cart, i, j);
    }
    forall x | x in OwnedIds(cart, uid) && x != cart[i].id ensures x in OwnedIds(c, uid) {
      var j :| 0 <= j < |cart| && cart[j].userId == uid && cart[j].id == x;
      var k := if j < i then j else j - 1;
      assert c[k] == cart[j];
    }
  }

  /** Two positions of a cart whose rows are pairwise apart hold different ids. */
  lemma OtherRowOtherId(cart: seq<CartRow>, i: int, j: int)
    requires Pairwise(cart, CartApart) && 0 <= i < |cart| && 0 <= j < |cart| && i != j
    ensures cart[j].id != cart[i].id
  {
    if j < i {
      assert CartApart(cart[j], cart[i]);
    } else {
      assert CartApart(cart[i], cart[j]);
    }
  }

  /** Inserting a user with the next id and an unused email keeps the store
      valid. */
  lemma AppendUserKeepsValid(st: Store, u: UserRow)
    requires Valid(st)
    requires u.id == st.nextUserId
    requires forall k | 0 <= k < |st.users| :: st.users[k].email != u.email
    ensures Valid(st.(users := st.users + [u], nextUserId := st.nextUserId + 1))
  {
    var st' := st.(users := st.users + [u], nextUserId := st.nextUserId + 1);
    forall a, b | 0 <= a < b < |st'.users| ensures UsersApart(st'.users[a], st'.users[b]) {
      if b < |st.users| {
        assert UsersApart(st.users[a], st.users[b]);
      }
    }
    forall k | 0 <= k < |st'.cart| ensures CartRowFits(st', st'.cart[k]) {
      assert CartRowFits(st, st.cart[k]);
      var j :| 0 <= j < |st.users| && st.users[j].id == st.cart[k].userId;
      assert st'.users[j] == st.users[j];
    }
  }
  /** Inserting a product with an unused id and the next timestamp keeps the
      store valid. */
  lemma AppendProductKeepsValid(st: Store, p: ProductRow)
    requires Valid(st)
    requires p.createdAt == st.clock && !ProductExists(st.products, p.id)
    ensures Valid(st.(products := st.products + [p], clock := st.clock + 1))
  {
    var st' := st.(products := st.products + [p], clock := st.clock + 1);
    forall a, b | 0 <= a < b < |st'.products| ensures ProductsApart(st'.products[a], st'.products[b]) {
      if b < |st.products| {
        assert ProductsApart(st.products[a], st.products[b]);
      }
    }
    forall k | 0 <= k < |st'.cart| ensures CartRowFits(st', st'.cart[k]) {
      assert CartRowFits(st, st.cart[k]);
      var j :| 0 <= j < |st.products| && st.products[j].id == st.cart[k].productId;
      assert st'.products[j] == st.products[j];
    }
  }
}

=== FILE: text.dfy ===
/**
 * The string primitives the handlers use: `trim`, `toLowerCase`, `includes`
 * and `split("@")[0]`.
 */
module Text {

  /** The characters `String.prototype.trim` strips: the WhiteSpace and
      LineTerminator productions of ECMAScript (section 12.2 and 12.3 of ECMA-262). */
  predicate IsSpace(c: char) {
    || c == '\t' || c == '\n' || c == '\U{000B}' || c == '\U{000C}' || c == '\r'
    || c == ' ' || c == '\U{00A0}' || c == '\U{1680}' || ('\U{2000}' <= c <= '\U{200A}')
    || c == '\U{2028}' || c == '\U{2029}' || c == '\U{202F}' || c == '\U{205F}'
    || c == '\U{3000}' || c == '\U{FEFF}'
  }

  predicate NoSpace(s: string) {
    forall i | 0 <= i < |s| :: !IsSpace(s[i])
  }

  predicate AllSpace(s: string) {
    forall i | 0 <= i < |s| :: IsSpace(s[i])
  }

  /** Drops the leading whitespace: the result is the suffix after it. */
  function TrimStart(s: string): (r: string)
    ensures |r| <= |s| && r == s[|s| - |r|..]
    ensures AllSpace(s[..|s| - |r|])
    ensures r == [] || !IsSpace(r[0])
  {
    if |s| > 0 && IsSpace(s[0]) then
      var r := TrimStart(s[1..]);
      assert s[1..][|s| - 1 - |r|..] == s[|s| - |r|..];
      assert forall i | 1 <= i < |s| - |r| :: s[i] == s[1..][..|s| - 1 - |r|][i - 1];
      r
    else s
  }

  /** Drops the trailing whitespace: the result is the prefix before it. */
  function TrimEnd(s: string): (r: string)
    ensures |r| <= |s| && r == s[..|r|]
    ensures AllSpace(s[|r|..])
    ensures r == [] || !IsSpace(r[|r| - 1])
  {
    if |s| > 0 && IsSpace(s[|s| - 1]) then
      var r := TrimEnd(s[..|s| - 1]);
      assert s[..|s| - 1][..|r|] == s[..|r|];
      assert forall i | |r| <= i < |s| - 1 :: s[i] == s[..|s| - 1][|r|..][i - |r|];
      r
    else s
  }

  /** JavaScript's `s.trim()`: the infix of `s` between its leading and trailing
      whitespace, which is empty exactly when `s` is all whitespace. */
  function Trim(s: string): (r: string)
    ensures |r| <= |s| && Contains(s, r)
    ensures r == [] || (!IsSpace(r[0]) && !IsSpace(r[|r| - 1]))
    ensures r == [] <==> AllSpace(s)
    ensures NoSpace(s) ==> r == s
  {
    TrimInfix(s);
    TrimEmpty(s);
    TrimNoSpace(s);
    TrimEnd(TrimStart(s))
  }

  lemma TrimInfix(s: string)
    ensures Contains(s, TrimEnd(TrimStart(s)))
  {
    var a := TrimStart(s);
    var r := TrimEnd(a);
    var k := |s| - |a|;
    assert r == a[..|r|];
    assert s[k..k + |r|] == r;
    assert OccursAt(s, r, k);
  }

  lemma TrimEmpty(s: string)
    ensures TrimEnd(TrimStart(s)) == [] <==> AllSpace(s)
  {
    var a := TrimStart(s);
    var k := |s| - |a|;
    if a == [] {
      assert s[..k] == s;
    } else {
      assert a[0] == s[k] && !IsSpace(s[k]);
      TrimEndKeepsHead(a);
    }
  }

  /** A string that starts with a non-space keeps at least that character. */
  lemma {:induction false} TrimEndKeepsHead(a: string)
    requires a != [] && !IsSpace(a[0])
    ensures TrimEnd(a) != []
  {
    if IsSpace(a[|a| - 1]) {
      assert |a| > 1;
      TrimEndKeepsHead(a[..|a| - 1]);
    }
  }

  lemma TrimNoSpace(s: string)
    ensures NoSpace(s) ==> TrimEnd(TrimStart(s)) == s
  {
    if NoSpace(s) && |s| > 0 {
      assert !IsSpace(s[0]) && !IsSpace(s[|s| - 1]);
      assert TrimStart(s) == s;
    }
  }

  /** ASCII lower-casing of one character. */
  function LowerChar(c: char): char {
    if 'A' <= c <= 'Z' then (c as int + 32) as char else c
  }

  /** `s.toLowerCase()`, restricted to the ASCII letters. */
  function Lower(s: string): (r: string)
    ensures |r| == |s|
    ensures forall i | 0 <= i < |s| :: r[i] == LowerChar(s[i])
  {
    seq(|s|, i requires 0 <= i < |s| => LowerChar(s[i]))
  }

  /** `needle` occurs in `hay` starting at position `i`. */
  predicate OccursAt(hay: string, needle: string, i: int) {
    0 <= i && i + |needle| <= |hay| && hay[i..i + |needle|] == needle
  }

  /** `hay.includes(needle)`. */
  predicate Contains(hay: string, needle: string) {
    exists i | 0 <= i <= |hay| :: OccursAt(hay, needle, i)
  }

  lemma ContainsEmpty(hay: string)
    ensures Contains(hay, "")
  {
    assert OccursAt(hay, "", 0);
  }

  /** `s.split("@")[0]`: everything before the first `@`, or all of `s`. */
  function LocalPart(s: string): (r: string)
    ensures |r| <= |s| && r == s[..|r|]
    ensures '@' !in r
    ensures |r| < |s| ==> s[|r|] == '@'
  {
    if |s| == 0 || s[0] == '@' then "" else [s[0]] + LocalPart(s[1..])
  }
}
